=== FILE: README.md ===
# Playoff draft helper — verified model

A Dafny model of the deterministic core of the playoff draft helper:

- **Bracket** — the fixed per-conference configuration (teams, seeds, wild-card pairings, bye team), `conference_of`, `teams_in_conf` and the divisional reseeding rule.
- **RoundProbs** — the derivation of per-round conditional win probabilities from cumulative "chance to reach round N" odds, with the zero-or-missing-denominator guard.
- **Playout** — one playout of a conference bracket (three wild-card games, two divisional games, the conference championship), driven by six draws in place of a random generator, and the games each team plays.
- **Conditionals** — the Monte Carlo loop over trials and its reduction to champion counts, champion-conditioned expected games and not-champion expected games.
- **Board** — the draft-order lock of each conference, override precedence, the effective-games lookup and the choice of ceiling a player is ranked by.
- **Scoring** — expected games (capped at four or three), expected points, the Super Bowl ceiling and the ceiling over a given number of games.
- **Odds**, **Tally**, **Wrappers** — the win-odds row and its game cap, counting and summing over sequences, and `Option`/`Result`.

Undefined (NaN) values are `Option<real>.None`; exceptions (unknown team, missing dictionary key) are `Result.Failure`. Probabilities and means are exact `real`s; game sums are `int`s, which floating-point sums of small integers agree with.

## Model

| member | source | states |
|---|---|---|
| Bracket.ConferenceOf | bracket.py:17-22 | succeeds exactly for the fourteen configured teams, placing each in the conference whose team set holds it; any other name fails with an unknown-team error |
| Bracket.ConferenceOfAgreesWithTeams | bracket.py:17-25 | a team belongs to a conference's team set exactly when `conference_of` names that conference |
| Bracket.TeamsInConfMembership | bracket.py:24-25 | a team is in `teams_in_conf(conf)` exactly when `conference_of` places it in the NFC for the name "NFC" and in the AFC for every other name |
| Bracket.ConferencesPartition | bracket.py:2-3 | the two conferences' team sets are disjoint and each has seven teams |
| Bracket.Slots | bracket.py:10-15 | the bye team followed by the six wild-card teams in pairing order lists every team of the conference exactly once |
| Bracket.SlotsSeeded | bracket.py:5-15 | every team of a conference bracket has a seed |
| Bracket.SeedsWellFormed | bracket.py:5-15 | within a conference seeds lie in 1..7 and are pairwise distinct, and the bye team is seed 1 |
| Bracket.WorstSeededIndex | bracket.py:29 | the chosen index holds a maximal seed number, and no earlier winner has that seed (Python's `max` keeps the first maximum) |
| Bracket.WorstSeeded | bracket.py:29 | the chosen winner is one of the winners, no winner has a larger seed number, and every winner listed before it has a smaller one: of equal seeds the first is chosen, as `max` does |
| Bracket.Without | bracket.py:30 | holds exactly the names other than the excluded one, is shorter than the list by the number of times the excluded name occurs, and keeps distinct lists distinct |
| Bracket.WithoutIsSubsequence | bracket.py:30 | the kept winners sit at increasing positions of the winner list: they are a subsequence of it |
| Bracket.WithoutCounts | bracket.py:30 | every other winner is kept as many times as the list holds it and the excluded one never; with the subsequence property this fixes the result completely |
| Bracket.WithoutKeepsOrder | bracket.py:30 | every two winners that remain appear in the same order as in the wild-card winner list |
| Bracket.Unseeded | bracket.py:29 | reports a winner without a seed exactly when one exists (the `SEED[t]` lookup that would raise) |
| Bracket.DivisionalPairings | bracket.py:27-31 | fails on an empty or unseeded winner list; with three distinct seeded winners pairs the bye team with the worst-seeded winner, the first of equal seeds in list order, and the other two with each other, the four places holding the bye team and every winner once; the home team of the second game is the earlier of the two remaining winners in the wild-card list |
| Bracket.WithoutFirstTwo | bracket.py:30-31 | the first two kept winners are at the first two positions of the list that do not hold the excluded name |
| Bracket.TiedSeedsKeepFirst | bracket.py:27-31 | for the winners GB, LAC and CHI, where GB and LAC share seed number 7, the bye team SEA hosts GB and LAC hosts CHI |
| Bracket.SecondGameOrder | bracket.py:27-31 | the second divisional game is between the first two winners, in list order, other than the bye team's opponent, the earlier one at home, also when a winner is listed twice |
| RoundProbs.Ratio | sim.py:25-30 | a defined quotient multiplied back by the denominator gives the numerator; an undefined numerator gives an undefined quotient |
| RoundProbs.WcWinProb | sim.py:23-27 | the wild-card win probability is the chance to reach the divisional round for a team with a wild-card game and undefined for a bye team |
| RoundProbs.DivWinProb | sim.py:23-28 | for a wild-card team, the chance to reach the conference game divided by the chance to reach the divisional round when that is positive, and exactly 0.0 when it is zero or missing; for a bye team, the chance to reach the conference game |
| RoundProbs.CcWinProb | sim.py:30 | the chance to reach the Super Bowl divided by the chance to reach the conference game when that is positive, and exactly 0.0 otherwise |
| RoundProbs.ChainRule | sim.py:22-30 | with positive denominators, the product of the per-round win probabilities is the chance to reach the Super Bowl |
| RoundProbs.UnitInterval | sim.py:22-30 | nested chances in [0, 1] give per-round probabilities in [0, 1] |
| RoundProbs.LastRowIndex | sim.py:15-18 | the row a dictionary built from the table keeps for a team is its last row |
| RoundProbs.BuildRoundProbs | sim.py:14-32 | each of the three tables has exactly the table's teams as keys, and each team's entries are the per-round probabilities of its last row |
| Playout.Play | sim.py:34-35 | the winner is one of the two teams, and the first team wins exactly when the draw is below its defined win probability |
| Playout.PlayCertain | sim.py:34-35 | for a draw in [0, 1), probability one always picks the first team and probability zero (or undefined) always picks the second |
| Playout.Lookup | sim.py:47 | a probability-table lookup succeeds exactly for present keys and otherwise fails with a missing-key error naming the team |
| Playout.PlayGame | sim.py:47 | a game succeeds exactly when the home team has a probability entry, and its winner is the one that entry and the draw decide |
| Playout.PlayRound | sim.py:52-55 | a round succeeds exactly when every home team has an entry; otherwise it fails naming the first home team, in game order, without one; each game keeps its pairing and is decided by its own draw |
| Playout.WildCardWinners | sim.py:43-47 | the three wild-card winners are distinct seeded teams of the conference, none of them the bye team |
| Playout.DivisionalTeams | sim.py:50 | the reseeding of any wild-card outcome succeeds and pairs four teams of the conference |
| Playout.WildCardRound | sim.py:43-47 | the wild-card round plays the configured pairings, each decided by its draw against the wild-card table; it succeeds exactly when the three home teams have wild-card entries and otherwise fails naming the first home team without one |
| Playout.DivisionalRound | sim.py:50-55 | the divisional games are exactly the reseeded pairings of the wild-card winners, each decided by its draw against the divisional table; a failure names a team with no divisional entry |
| Playout.DivisionalRoundFails | sim.py:52-55 | the divisional round succeeds exactly when the bye team and the second game's home team have divisional entries, and otherwise fails naming the bye team if it has none and the other home team if it does |
| Playout.PlayRoundDecided | sim.py:52-55 | games between the given pairings, each decided by its draw against the table, are exactly the games the round plays |
| Playout.WildCardRoundUnique | sim.py:43-47 | the wild-card games of any bracket playout decided by the draws are exactly the wild-card round |
| Playout.DivisionalRoundUnique | sim.py:50-55 | divisional games between the reseeded pairings and decided by the draws are exactly the divisional round |
| Playout.DivisionalRoundTeams | sim.py:52-55 | both divisional games are between teams of the conference |
| Playout.LaterRounds | sim.py:49-63 | the divisional and championship rounds follow the bracket from the given wild-card games, each decided by its draw and round table; a failure names a team missing from the divisional or the championship table |
| Playout.LaterRoundsUnique | sim.py:49-61 | the later games of a bracket playout decided by the draws are exactly what the later rounds play |
| Playout.PlayConferenceUnique | sim.py:37-63 | a bracket playout whose six games are decided by the six draws is the one the playout produces: the draws determine the playout |
| Playout.PlayConferenceExact | sim.py:37-63 | a playout succeeds exactly when some bracket playout is decided by the draws, so it fails only on a lookup one of the games actually played needs |
| Playout.PlayConference | sim.py:37-63 | one playout succeeds whenever the tables cover the conference, fails only naming a conference team missing from one of the three tables, and is a bracket playout whose six games are decided by the six draws in order |
| Playout.DivisionalShape | bracket.py:27-31 | in any playout the bye team hosts the first divisional game and the other three places hold the three wild-card winners, each once |
| Playout.Rounds | sim.py:43-55 | a playout's wild-card games are between the six non-bye teams in slot order and its divisional round has the shape above |
| Playout.ShapedWildCards | sim.py:43-47 | each wild-card team plays once in the wild-card round and loses there exactly when it did not win |
| Playout.ShapedDivisional | sim.py:49-55 | the bye team and each wild-card winner play once in the divisional round and lose there unless they win, and the two divisional winners differ |
| Playout.ShapedCounts | sim.py:40-61 | each team plays between one game and its maximum (two for the bye team, three otherwise), the champion plays its maximum, and every team but the champion loses exactly once |
| Playout.ShapedChampion | sim.py:58-63 | the champion and every team that plays are among the bracket's teams |
| Playout.FollowsShaped | sim.py:37-63 | every playout that follows a conference's bracket has the shape the counting lemmas assume |
| Playout.GamesPerTeam | sim.py:40-63 | in one playout every conference team plays 1 to 2 games (bye team) or 1 to 3 (others), no outside team plays, and the champion is a conference team playing its maximum |
| Playout.EliminatedOnce | sim.py:43-63 | every conference team except the champion loses exactly once and the champion never loses |
| Playout.Players | sim.py:40 | every team that appears in a game is a key of the games-played map |
| Playout.RecordGame | sim.py:53-54 | recording a game adds one to each side's count and leaves every other team unchanged |
| Playout.GamesPlayed | sim.py:40-60 | the games-played map has exactly the conference's teams as keys, each counting that team's appearances |
| Playout.GamesPlayedSum | sim.py:40-61 | the games played across a conference total twelve |
| Playout.SimulateOnce | sim.py:37-63 | a trial succeeds exactly when its playout does and otherwise fails with the playout's error; a trial's champion and games-played map are those of the playout its six draws decide; the counts lie between one and each team's maximum, the champion's is its maximum, and they total twelve |
| Conditionals.Init | sim.py:75-79 | the zeroed tables hold the counts and sums of no trials |
| Conditionals.Step | sim.py:84-90 | one trial's update keeps every table keyed by every conference team |
| Conditionals.StepWins | sim.py:84-90 | after one more trial the champion counts and not-champion counts are those of the longer trial list |
| Conditionals.StepChampion | sim.py:85-87 | after one more trial the per-champion game sums are those of the longer trial list |
| Conditionals.StepNotChampion | sim.py:88-89 | after one more trial the not-champion game sums are those of the longer trial list |
| Conditionals.StepTracks | sim.py:81-90 | one loop iteration preserves the invariant that the tables hold exactly the counts and sums of the trials so far |
| Conditionals.Accumulate | sim.py:75-90 | after the loop, each champion count is the number of trials that team won, each not-champion count is the number it did not win, and each sum is the team's games over the corresponding trials |
| Conditionals.WinsTotal | sim.py:81-84 | the champion counts over the conference's teams sum to the number of trials |
| Conditionals.WinsBound | sim.py:84 | no team wins more trials than were run |
| Conditionals.ChampionGames | sim.py:85-87 | a team's games over the trials a champion won lie between one and its maximum per trial, and the champion's own games are exactly its maximum per win |
| Conditionals.NotChampionGames | sim.py:88-89 | a team's games over the trials it did not win lie between one and its maximum per trial |
| Conditionals.ChampionTable | sim.py:92-96 | a champion has a conditional table exactly when it won at least one trial, the table is keyed by exactly the conference's teams, and each entry is the team's summed games divided by the champion's win count |
| Conditionals.NotChampionTable | sim.py:98-101 | every team has an entry, undefined exactly when its not-champion count is zero and otherwise its not-champion sum divided by that count |
| Conditionals.CountTable | sim.py:76 | the returned champion counts are the accumulated ones, one per conference team |
| Conditionals.Reduce | sim.py:92-103 | the three results combine the tables above: counts and not-champion expectations keyed by the conference's teams, a conditional row for each team with a win, itself keyed by exactly the conference's teams |
| Conditionals.ReduceShape | sim.py:92-103 | champion counts lie in 0..n and sum to n, a champion key is present exactly when its count is positive and its row is keyed by exactly the conference's teams, and a not-champion expectation is undefined exactly when the team won every trial |
| Conditionals.ChampionMeanRange | sim.py:92-96 | a champion-conditioned expectation lies between one and the team's maximum games, and is the champion's maximum for the champion itself |
| Conditionals.NotChampionMeanRange | sim.py:98-101 | a defined not-champion expectation lies between one and the team's maximum games |
| Conditionals.AccChampionRange | sim.py:81-96 | accumulated trial results keep every champion-conditioned mean within the games a team can play |
| Conditionals.AccNotChampionRange | sim.py:81-101 | accumulated trial results keep every not-champion mean within the games a team can play |
| Conditionals.ReduceChampionRange | sim.py:92-96 | every champion-conditioned expectation of the results lies in [1, maximum games], the champion's own equal to its maximum |
| Conditionals.ReduceNotChampionRange | sim.py:98-101 | every defined not-champion expectation of the results lies in [1, maximum games] |
| Conditionals.ChampionMeanOf | sim.py:96 | an accumulated champion-conditioned mean is the team's games over the trials the champion won divided by their number |
| Conditionals.NotChampionMeanOf | sim.py:101 | an accumulated not-champion mean is the team's games over the trials it did not win divided by their number |
| Conditionals.ReduceChampionMeans | sim.py:92-96 | the returned counts are win counts over the trials and each champion-conditioned expectation is the empirical mean over the trials that champion won |
| Conditionals.ReduceNotChampionMeans | sim.py:98-101 | each defined not-champion expectation is the empirical mean over the trials the team did not win |
| Conditionals.RunTrials | sim.py:81-82 | running n trials succeeds exactly when every trial does, yields trial i from draws 6i..6i+5, and otherwise fails with the error of the first failing trial, every earlier one having succeeded |
| Conditionals.Playouts | sim.py:82 | each trial of the loop is one conference playout on its six draws |
| Conditionals.SimulateConditionals | sim.py:65-103 | succeeds exactly when every trial succeeds, otherwise failing with the first failing trial's error, and so always when the tables cover the conference; the results are the empirical win counts and conditional means of the trials, each conditional row keyed by exactly the conference's teams, counts summing to the number of trials, expectations within each team's game range, and a not-champion expectation undefined exactly when the team won every trial |
| Conditionals.ZeroTrials | sim.py:92-101 | with no trials there are no conditional rows, every team's not-champion expectation is undefined (NaN) and every champion count is zero |
| Conditionals.TrialsValid | sim.py:81-82 | every trial of a run names a conference champion and records between one and the maximum games for each team, the champion's maximum for the champion |
| Odds.MaxGames | data.py:37-38 | the game cap is four exactly when the team has a wild-card game and three otherwise |
| Scoring.ExpectedGames | scoring.py:4-16 | the uncapped expected games are defined exactly when every chance the formula reads is present |
| Scoring.Xgp | scoring.py:4-16 | expected games never exceed the team's game cap |
| Scoring.XgpBounds | scoring.py:4-16 | expected games are min(4, 1 + three chances) with a wild-card game and min(3, 1 + two chances) without; a missing chance gives the cap (Python's `min` keeps the cap against NaN); nonnegative chances give at least one game |
| Scoring.XgpMonotone | scoring.py:4-16 | higher chances of reaching later rounds never lower expected games |
| Scoring.Tefp | scoring.py:18-22 | with a nonnegative later-round mean, expected points never exceed the points of a run through the whole game cap |
| Scoring.TefpMonotone | scoring.py:18-22 | with a nonnegative later-round mean, expected points do not decrease when every advancement chance of the team's row is at least as high |
| Scoring.TefpWithinSb | scoring.py:18-28 | with means no higher than ceilings and a nonnegative later-round mean, expected points never exceed the Super Bowl ceiling |
| Scoring.EffGamesFallback | scoring.py:30-35 | an undefined effective game count, or one equal to the game cap, gives exactly the Super Bowl ceiling |
| Scoring.PointsOverMonotone | scoring.py:30-35 | with nonnegative per-game points, more games never lower the points |
| Scoring.CeilingIfSb | scoring.py:24-28 | the Super Bowl ceiling equals the effective-games ceiling both with undefined (NaN) effective games and with effective games equal to `Max_Games` |
| Scoring.CeilingWithEffGames | scoring.py:30-35 | with a nonnegative later-round ceiling and effective games undefined or at most the cap, the ceiling never exceeds the ceiling over the full cap |
| Scoring.CeilingMonotone | scoring.py:30-35 | the ceiling over a game count is nondecreasing in the count when the later-round ceiling is nonnegative |
| Scoring.CeilingWithinSb | scoring.py:24-35 | a ceiling over at most the game cap never exceeds the Super Bowl ceiling |
| Board.DraftedTeam | board.py:13-15 | a drafted player counts only when mapped to a nonempty team name, and then gives that team |
| Board.FirstIn | board.py:10-19 | the first team of a conference in draft order: present exactly when some drafted player's team is in that conference, and then taken from the earliest such player |
| Board.LockStep | board.py:12-18 | one draft entry fails exactly for an unknown team; otherwise it sets the lock of the team's conference only if that lock is unset and leaves the other lock alone |
| Board.FirstTeamLocks | board.py:10-19 | the fold succeeds exactly when every drafted team is known, and otherwise fails naming the first unknown one |
| Board.FirstInAppend | board.py:11-18 | one more draft entry changes a conference's first team only when it had none and the entry's team is in that conference |
| Board.LocksAreFirst | board.py:10-19 | each conference's lock is the team of the earliest drafted player in that conference, or none if there is no such player |
| Board.FirstInStable | board.py:17-18 | once a conference has a first team, later entries never change it |
| Board.LockStable | board.py:17-18 | a lock set by a prefix of the draft survives every later pick |
| Board.SkipsUnmapped | board.py:13-15 | a player missing from the mapping, or mapped to an empty team, changes nothing |
| Board.AutoLocksInConf | board.py:10-19 | every automatic lock is a non-empty team of its own conference |
| Board.UsingLock | board.py:38-39 | a truthy override is used; a falsy override (absent or empty) leaves the automatic lock unchanged; the result is truthy exactly when one of them is |
| Board.UsingLocks | board.py:37-39 | each conference's lock is chosen independently by override precedence |
| Board.UsedLockIsFirst | board.py:37-39 | without a truthy override, the lock a conference uses is its first drafted team |
| Board.EffGamesIn | board.py:44-59 | with a lock other than the team, the conditional table entry for the lock as champion, undefined when either key is missing; otherwise the team's not-champion expectation, undefined when missing |
| Board.EffGames | board.py:41-59 | the effective game count fails exactly for an unknown team, naming it |
| Board.EffGamesChoice | board.py:44-59 | for the lock itself and in a conference without a lock, the team's not-champion expectation; for another team of a locked conference, the entry conditioned on the lock, undefined when absent |
| Board.EffGamesRange | board.py:41-59 | with the simulator's results, every defined effective game count lies between one and the team's maximum games |
| Board.EffGamesDefined | board.py:44-59 | a lock that won at least one trial gives every other team of its conference a defined count; with no lock, a team's count is undefined exactly when it won every trial |
| Board.EffGamesMeaning | board.py:44-50 | a lock-conditioned effective game count is the team's mean games over the trials the lock won |
| Board.DraftPoolCeiling | board.py:62-82 | the ranking ceiling fails exactly for an unknown team |
| Board.DraftPoolChoice | board.py:76-82 | the not-conference-champion ceiling is used exactly when the team's conference has a lock and the team is not it; otherwise the Super Bowl ceiling |
| Board.DraftPoolWithinSb | board.py:76-82 | with the simulator's results and a nonnegative later-round ceiling, the ranking ceiling never exceeds the Super Bowl ceiling |

## Left out

- The Streamlit interface (app.py), CSV loading and pandas string and percentage coercion (data.py): only the wild-card flag and the game cap that data.py derives are carried, as `OddsRow.hasWc` and `Odds.MaxGames`.
- The random generator: each trial reads six draws from an explicit sequence (trial i uses draws 6i..6i+5), so the seed and the generator's statistics (convergence, symmetric-bracket frequencies) are not modelled. Draws are not required to lie in [0, 1); `Playout.PlayCertain` states what that range gives.
- IEEE floating point: probabilities and means are exact reals, and NaN is an undefined `Option` value; arithmetic on NaN beyond the sums and `min` the formulas use is not modelled.
- Scoring.PlayerRow: projected points are always defined reals; a missing projection (NaN in a player row) is not modelled.
- Board.DraftPoolCeiling: the team's win-odds row is passed in; the `win_by_team.loc` lookup that would raise for a team missing from the odds table is not modelled.
- The rest of `compute_board`: the booster columns, the ADP merge, rank, `Value_Gap` and sorting are DataFrame bookkeeping with no decisions about locks or ceilings.
- Conditionals.SimulateConditionals: a non-positive trial count is not rejected; as in the code, zero trials give no champion-conditioned entries and undefined not-champion expectations.
- Conditionals.SimulateConditionals: the conference is `NFC` or `AFC`. With at least one trial, any other string raises at the `BYE[conf]` lookup; with `n_sims <= 0` no trial runs and the code returns the AFC-keyed tables (no conditional rows, NaN for every team, zero counts), which are what `Conditionals.ZeroTrials` states for `AFC`; `Bracket.TeamsInConfMembership` covers `teams_in_conf` itself.
- Board.EffGames: the simulator results are two records (one per conference) rather than four loose dictionaries; the lookups are the same.

=== FILE: board.dfy ===
/** Lock selection and the draft-pool ceiling: the first drafted team of each
    conference becomes that conference's lock (unless overridden), and a
    player whose team shares a conference with a lock is ranked by the
    ceiling over the games the team is expected to play when the lock wins
    that conference. */
module Board {
  import opened Wrappers
  import opened Bracket
  import opened Odds
  import opened Scoring
  import opened Playout
  import opened Conditionals

  /** The lock of each conference, if any. */
  datatype Locks = Locks(nfc: Option<string>, afc: Option<string>) {
    function Get(c: Conf): Option<string> {
      match c
      case NFC => nfc
      case AFC => afc
    }

    function Set(c: Conf, t: string): (r: Locks)
      ensures r.Get(c) == Some(t)
      ensures forall d :: d != c ==> r.Get(d) == Get(d)
    {
      match c
      case NFC => this.(nfc := Some(t))
      case AFC => this.(afc := Some(t))
    }
  }

  /** Python truthiness of an optional team name: present and non-empty. */
  predicate Truthy(t: Option<string>) {
    t.Some? && t.value != ""
  }

  /** The team a drafted player belongs to, when the mapping names one;
      players missing from the mapping or mapped to an empty name have none. */
  function DraftedTeam(playerToTeam: map<string, string>, name: string): (t: Option<string>)
    ensures t.Some? ==> Truthy(t) && name in playerToTeam && t.value == playerToTeam[name]
    ensures t.None? <==> name !in playerToTeam || playerToTeam[name] == ""
  {
    if name in playerToTeam && playerToTeam[name] != "" then Some(playerToTeam[name]) else None
  }

  /** A drafted team that `conference_of` accepts (or no team at all). */
  predicate Known(t: Option<string>) {
    t.None? || t.value in NfcTeams + AfcTeams
  }

  /** A drafted team of conference `c`. */
  predicate InConf(t: Option<string>, c: Conf) {
    t.Some? && t.value in TeamsOf(c)
  }

  /** Entry `i` is the first whose team `conference_of` rejects. */
  ghost predicate FirstUnknownAt(drafted: seq<string>, playerToTeam: map<string, string>, i: int) {
    && 0 <= i < |drafted|
    && !Known(DraftedTeam(playerToTeam, drafted[i]))
    && forall j :: 0 <= j < i ==> Known(DraftedTeam(playerToTeam, drafted[j]))
  }

  /** The first team of conference `c` in draft order, read from the front:
      the reference the lock fold is checked against. */
  function FirstIn(drafted: seq<string>, playerToTeam: map<string, string>, c: Conf): (r: Option<string>)
    ensures r.Some? <==> exists i :: 0 <= i < |drafted| && InConf(DraftedTeam(playerToTeam, drafted[i]), c)
    ensures r.Some? ==> r.value in TeamsOf(c)
    ensures r.Some? ==>
      exists i :: 0 <= i < |drafted| && DraftedTeam(playerToTeam, drafted[i]) == r
        && forall j :: 0 <= j < i ==> !InConf(DraftedTeam(playerToTeam, drafted[j]), c)
    decreases |drafted|
  {
    if |drafted| == 0 then None
    else
      var t := DraftedTeam(playerToTeam, drafted[0]);
      if InConf(t, c) then t
      else
        var r := FirstIn(drafted[1..], playerToTeam, c);
        assert forall i :: 0 <= i < |drafted| - 1 ==> drafted[1..][i] == drafted[i + 1];
        r
  }

  /** One draft entry: a team with no lock yet in its conference becomes the
      lock; every team, locked conference or not, must be known. */
  function LockStep(locks: Locks, t: Option<string>): (r: Result<Locks, Error>)
    ensures r.Success? <==> Known(t)
    ensures r.Failure? ==> r.error == UnknownTeam(t.value)
    ensures r.Success? ==>
      forall c :: r.value.Get(c) == if locks.Get(c).None? && InConf(t, c) then t else locks.Get(c)
  {
    if t.None? then Success(locks)
    else match ConferenceOf(t.value)
      case Failure(e) => Failure(e)
      case Success(c) =>
        ConferencesPartition();
        if locks.Get(c).None? then Success(locks.Set(c, t.value)) else Success(locks)
  }

  /** The first team of each conference in draft order, or the error of the
      first drafted team in neither conference. */
  function FirstTeamLocks(drafted: seq<string>, playerToTeam: map<string, string>): (r: Result<Locks, Error>)
    ensures r.Success? <==> forall i :: 0 <= i < |drafted| ==> Known(DraftedTeam(playerToTeam, drafted[i]))
    ensures r.Failure? ==>
      exists i :: FirstUnknownAt(drafted, playerToTeam, i)
        && r.error == UnknownTeam(DraftedTeam(playerToTeam, drafted[i]).value)
    decreases |drafted|
  {
    if |drafted| == 0 then Success(Locks(None, None))
    else
      var earlier := drafted[..|drafted| - 1];
      var last := DraftedTeam(playerToTeam, drafted[|drafted| - 1]);
      assert forall i :: 0 <= i < |earlier| ==> earlier[i] == drafted[i];
      var prev :- FirstTeamLocks(earlier, playerToTeam);
      LockStep(prev, last)
  }

  /** Adding an entry at the end changes the first team of a conference only
      when there was none. */
  lemma {:induction false} FirstInAppend(drafted: seq<string>, name: string, playerToTeam: map<string, string>, c: Conf)
    ensures var t := DraftedTeam(playerToTeam, name);
      FirstIn(drafted + [name], playerToTeam, c) ==
        if FirstIn(drafted, playerToTeam, c).None? && InConf(t, c) then t else FirstIn(drafted, playerToTeam, c)
    decreases |drafted|
  {
    if |drafted| > 0 {
      assert (drafted + [name])[1..] == drafted[1..] + [name];
      FirstInAppend(drafted[1..], name, playerToTeam, c);
    }
  }

  /** The fold's lock of each conference is the first team of that
      conference in draft order. */
  lemma {:induction false} LocksAreFirst(drafted: seq<string>, playerToTeam: map<string, string>)
    requires FirstTeamLocks(drafted, playerToTeam).Success?
    ensures forall c :: FirstTeamLocks(drafted, playerToTeam).value.Get(c) == FirstIn(drafted, playerToTeam, c)
    decreases |drafted|
  {
    if |drafted| > 0 {
      var earlier := drafted[..|drafted| - 1];
      var name := drafted[|drafted| - 1];
      assert drafted == earlier + [name];
      LocksAreFirst(earlier, playerToTeam);
      forall c
        ensures FirstTeamLocks(drafted, playerToTeam).value.Get(c) == FirstIn(drafted, playerToTeam, c)
      {
        FirstInAppend(earlier, name, playerToTeam, c);
      }
    }
  }

  /** Once a lock is set, later entries never change it. */
  lemma {:induction false} FirstInStable(a: seq<string>, b: seq<string>, playerToTeam: map<string, string>, c: Conf)
    requires FirstIn(a, playerToTeam, c).Some?
    ensures FirstIn(a + b, playerToTeam, c) == FirstIn(a, playerToTeam, c)
    decreases |a|
  {
    if !InConf(DraftedTeam(playerToTeam, a[0]), c) {
      assert (a + b)[1..] == a[1..] + b;
      FirstInStable(a[1..], b, playerToTeam, c);
    }
  }

  /** Locks from a draft prefix survive every later pick. */
  lemma LockStable(a: seq<string>, b: seq<string>, playerToTeam: map<string, string>, c: Conf)
    requires FirstTeamLocks(a + b, playerToTeam).Success?
    ensures FirstTeamLocks(a, playerToTeam).Success?
    ensures FirstTeamLocks(a, playerToTeam).value.Get(c).Some? ==>
      FirstTeamLocks(a + b, playerToTeam).value.Get(c) == FirstTeamLocks(a, playerToTeam).value.Get(c)
  {
    assert forall i :: 0 <= i < |a| ==> (a + b)[i] == a[i];
    LocksAreFirst(a, playerToTeam);
    LocksAreFirst(a + b, playerToTeam);
    if FirstIn(a, playerToTeam, c).Some? {
      FirstInStable(a, b, playerToTeam, c);
    }
  }

  /** A player with no team in the mapping, or an empty one, leaves the locks
      as they were, even when no lock is set yet. */
  lemma SkipsUnmapped(drafted: seq<string>, name: string, playerToTeam: map<string, string>)
    requires name !in playerToTeam || playerToTeam[name] == ""
    ensures FirstTeamLocks(drafted + [name], playerToTeam) == FirstTeamLocks(drafted, playerToTeam)
  {
    assert (drafted + [name])[..|drafted|] == drafted;
  }

  /** Every automatic lock is a truthy team of its own conference. */
  lemma AutoLocksInConf(drafted: seq<string>, playerToTeam: map<string, string>, c: Conf)
    requires FirstTeamLocks(drafted, playerToTeam).Success?
    ensures var lock := FirstTeamLocks(drafted, playerToTeam).value.Get(c);
      lock.Some? ==> Truthy(lock) && lock.value in TeamsOf(c)
  {
    LocksAreFirst(drafted, playerToTeam);
    var lock := FirstIn(drafted, playerToTeam, c);
    if lock.Some? {
      var i :| 0 <= i < |drafted| && DraftedTeam(playerToTeam, drafted[i]) == lock;
    }
  }

  /** The lock a conference uses: a truthy override, else the automatic one. */
  function UsingLock(override: Option<string>, auto: Option<string>): (r: Option<string>)
    ensures r == override || r == auto
    ensures Truthy(override) ==> r == override
    ensures !Truthy(override) ==> r == auto
    ensures Truthy(r) <==> Truthy(override) || Truthy(auto)
  {
    if Truthy(override) then override else auto
  }

  function UsingLocks(overrides: Locks, auto: Locks): (r: Locks)
    ensures forall c :: r.Get(c) == UsingLock(overrides.Get(c), auto.Get(c))
  {
    Locks(UsingLock(overrides.nfc, auto.nfc), UsingLock(overrides.afc, auto.afc))
  }

  /** Without an override, the lock a conference uses is the first team of
      that conference in draft order. */
  lemma UsedLockIsFirst(drafted: seq<string>, playerToTeam: map<string, string>, overrides: Locks, c: Conf)
    requires FirstTeamLocks(drafted, playerToTeam).Success?
    requires !Truthy(overrides.Get(c))
    ensures UsingLocks(overrides, FirstTeamLocks(drafted, playerToTeam).value).Get(c) == FirstIn(drafted, playerToTeam, c)
  {
    LocksAreFirst(drafted, playerToTeam);
  }

  /** The simulator results of conference `c`. */
  function TablesOf(c: Conf, nfc: Conditionals, afc: Conditionals): Conditionals {
    if c == NFC then nfc else afc
  }

  /** `exp_if_not_champ.get(team, nan)`. */
  function NotChampLookup(tab: Conditionals, team: string): Option<real> {
    if team in tab.expIfNotChamp then tab.expIfNotChamp[team] else None
  }

  /** `cond_by_champ.get(lock, {}).get(team, nan)`. */
  function CondLookup(tab: Conditionals, lock: string, team: string): Option<real> {
    if lock in tab.condByChamp && team in tab.condByChamp[lock] then Some(tab.condByChamp[lock][team]) else None
  }

  /** The games `team` is expected to play when it does not win its
      conference: given that the conference's lock wins it, or, for the lock
      itself and in a conference without a lock, over the trials the team did
      not win. */
  function EffGames(team: string, locks: Locks, nfc: Conditionals, afc: Conditionals): (r: Result<Option<real>, Error>)
    ensures r.Failure? <==> team !in NfcTeams + AfcTeams
    ensures r.Failure? ==> r.error == UnknownTeam(team)
  {
    var c :- ConferenceOf(team);
    Success(EffGamesIn(team, locks.Get(c), TablesOf(c, nfc, afc)))
  }

  /** `EffGames` once the team's conference, its lock and its tables are
      known. */
  function EffGamesIn(team: string, lock: Option<string>, tab: Conditionals): (r: Option<real>)
    ensures Truthy(lock) && team != lock.value ==>
      (r.Some? <==> lock.value in tab.condByChamp && team in tab.condByChamp[lock.value])
      && (r.Some? ==> r.value == tab.condByChamp[lock.value][team])
    ensures !Truthy(lock) || team == lock.value ==>
      (r.Some? <==> team in tab.expIfNotChamp && tab.expIfNotChamp[team].Some?)
      && (r.Some? ==> r == tab.expIfNotChamp[team])
  {
    if Truthy(lock) && team != lock.value then CondLookup(tab, lock.value, team)
    else NotChampLookup(tab, team)
  }

  /** Which simulator entry `EffGames` reads: the lock-conditioned one for a
      team of a locked conference other than the lock, the team's own
      not-champion one otherwise. */
  lemma EffGamesChoice(team: string, c: Conf, locks: Locks, nfc: Conditionals, afc: Conditionals)
    requires team in TeamsOf(c)
    ensures var r := EffGames(team, locks, nfc, afc);
      var tab, lock := TablesOf(c, nfc, afc), locks.Get(c);
      && r.Success?
      && (Truthy(lock) && team != lock.value ==> r.value == CondLookup(tab, lock.value, team))
      && (!Truthy(lock) || team == lock.value ==> r.value == NotChampLookup(tab, team))
  {
    ConferencesPartition();
    assert ConferenceOf(team) == Success(c);
  }

  /** The team's conference results come from the simulator: every effective
      game count it reads lies between one and the most games the team can
      play in its conference. */
  lemma EffGamesRange(team: string, c: Conf, n: nat, locks: Locks, nfc: Conditionals, afc: Conditionals)
    requires team in TeamsOf(c) && Sound(c, n, TablesOf(c, nfc, afc))
    ensures var r := EffGames(team, locks, nfc, afc);
      r.Success? && (r.value.Some? ==> 1.0 <= r.value.value <= MostGames(c, team) as real)
  {
    EffGamesChoice(team, c, locks, nfc, afc);
  }

  /** With simulator results, a lock that won at least one trial gives every
      other team of its conference a defined effective game count; without a
      lock, a team's count is undefined exactly when it won every trial. */
  lemma EffGamesDefined(team: string, c: Conf, n: nat, locks: Locks, nfc: Conditionals, afc: Conditionals)
    requires team in TeamsOf(c) && Sound(c, n, TablesOf(c, nfc, afc))
    ensures var r, tab, lock := EffGames(team, locks, nfc, afc), TablesOf(c, nfc, afc), locks.Get(c);
      && (Truthy(lock) && team != lock.value && lock.value in TeamsOf(c) && tab.champCounts[lock.value] > 0 ==>
            r == Success(Some(tab.condByChamp[lock.value][team])))
      && (!Truthy(lock) ==> (r.Success? && (r.value.None? <==> tab.champCounts[team] == n)))
  {
    EffGamesChoice(team, c, locks, nfc, afc);
  }

  /** With simulator results over `trials`, the lock-conditioned effective
      game count is the team's mean games over the trials the lock won. */
  lemma EffGamesMeaning(team: string, c: Conf, trials: seq<Trial>, locks: Locks, nfc: Conditionals, afc: Conditionals)
    requires team in TeamsOf(c) && Means(TeamsOf(c), trials, TablesOf(c, nfc, afc))
    requires Truthy(locks.Get(c)) && team != locks.Get(c).value
    requires EffGames(team, locks, nfc, afc).Success? && EffGames(team, locks, nfc, afc).value.Some?
    ensures var lock := locks.Get(c).value;
      && Wins(trials, lock) > 0
      && EffGames(team, locks, nfc, afc).value.value == Mean(GamesWhenChampion(trials, lock, team), Wins(trials, lock))
  {
    EffGamesChoice(team, c, locks, nfc, afc);
  }

  /** The ceiling a player is ranked by: over the effective games when the
      team's conference has a lock that is another team, otherwise the
      Super Bowl ceiling. */
  function DraftPoolCeiling(p: PlayerRow, row: OddsRow, team: string, locks: Locks, nfc: Conditionals, afc: Conditionals): (r: Result<real, Error>)
    ensures r.Failure? <==> team !in NfcTeams + AfcTeams
    ensures r.Failure? ==> r.error == UnknownTeam(team)
  {
    var c :- ConferenceOf(team);
    var lock := locks.Get(c);
    var eff := EffGamesIn(team, lock, TablesOf(c, nfc, afc));
    if Truthy(lock) && team != lock.value then Success(CeilingWithEffGames(p, row, eff))
    else Success(CeilingIfSb(p, row))
  }

  /** The not-champion ceiling is used exactly when the team's conference
      has a lock and the team is not it. */
  lemma DraftPoolChoice(p: PlayerRow, row: OddsRow, team: string, c: Conf, locks: Locks, nfc: Conditionals, afc: Conditionals)
    requires team in TeamsOf(c)
    ensures var r, lock := DraftPoolCeiling(p, row, team, locks, nfc, afc), locks.Get(c);
      && r.Success?
      && (Truthy(lock) && team != lock.value ==>
            r.value == CeilingWithEffGames(p, row, EffGames(team, locks, nfc, afc).value))
      && (!Truthy(lock) || team == lock.value ==> r.value == CeilingIfSb(p, row))
  {
    EffGamesChoice(team, c, locks, nfc, afc);
  }

  /** With simulator results and nonnegative later-round points, the draft
      pool ceiling never exceeds the Super Bowl ceiling. */
  lemma DraftPoolWithinSb(p: PlayerRow, row: OddsRow, team: string, c: Conf, n: nat, locks: Locks, nfc: Conditionals, afc: Conditionals)
    requires team in TeamsOf(c) && Sound(c, n, TablesOf(c, nfc, afc))
    requires p.laterCeiling >= 0.0
    ensures var r := DraftPoolCeiling(p, row, team, locks, nfc, afc);
      r.Success? && r.value <= CeilingIfSb(p, row)
  {
    DraftPoolChoice(p, row, team, c, locks, nfc, afc);
    EffGamesWithinCap(team, c, n, locks, nfc, afc, row.hasWc);
    CeilingWithinSb(p, row, EffGames(team, locks, nfc, afc).value);
  }

  /** A defined effective game count never exceeds the game cap. */
  lemma EffGamesWithinCap(team: string, c: Conf, n: nat, locks: Locks, nfc: Conditionals, afc: Conditionals, hasWc: bool)
    requires team in TeamsOf(c) && Sound(c, n, TablesOf(c, nfc, afc))
    ensures var r := EffGames(team, locks, nfc, afc);
      r.Success? && (r.value.Some? ==> r.value.value <= MaxGames(hasWc))
  {
    EffGamesRange(team, c, n, locks, nfc, afc);
  }
}

=== FILE: bracket.dfy ===
/** The fixed per-conference bracket: team sets, seeds, wild-card pairings,
    the bye team, and the divisional reseeding rule. */
module Bracket {
  import opened Wrappers
  import opened Tally

  datatype Conf = NFC | AFC {
    /** The conference's name as the configuration tables key it. */
    function Name(): string {
      match this
      case NFC => "NFC"
      case AFC => "AFC"
    }
  }

  const NfcTeams: set<string> := {"SEA", "CHI", "GB", "PHI", "SF", "CAR", "LAR"}
  const AfcTeams: set<string> := {"DEN", "NE", "LAC", "JAX", "BUF", "PIT", "HOU"}

  /** Seed numbers; a larger number is a worse seed. */
  const Seed: map<string, int> := map[
    "SEA" := 1, "CHI" := 2, "PHI" := 3, "CAR" := 4, "LAR" := 5, "SF" := 6, "GB" := 7,
    "DEN" := 1, "NE" := 2, "JAX" := 3, "PIT" := 4, "HOU" := 5, "BUF" := 6, "LAC" := 7
  ]

  /** The three wild-card games, home team first. */
  function WcMatchups(c: Conf): seq<(string, string)> {
    match c
    case NFC => [("CHI", "GB"), ("PHI", "SF"), ("CAR", "LAR")]
    case AFC => [("NE", "LAC"), ("JAX", "BUF"), ("PIT", "HOU")]
  }

  /** The team that skips the wild-card round. */
  function Bye(c: Conf): string {
    match c
    case NFC => "SEA"
    case AFC => "DEN"
  }

  /** Any name other than "NFC" selects the AFC teams. */
  function TeamsInConf(conf: string): set<string> {
    if conf == "NFC" then NfcTeams else AfcTeams
  }

  function TeamsOf(c: Conf): set<string> {
    TeamsInConf(c.Name())
  }

  function ConferenceOf(team: string): (r: Result<Conf, Error>)
    ensures r.Success? <==> team in NfcTeams + AfcTeams
    ensures r.Success? ==> team in TeamsOf(r.value)
    ensures r.Failure? ==> r.error == UnknownTeam(team)
  {
    if team in NfcTeams then Success(NFC)
    else if team in AfcTeams then Success(AFC)
    else Failure(UnknownTeam(team))
  }

  /** The seven bracket positions of a conference: the bye team, then each
      wild-card game's home and away team. */
  function Slots(c: Conf): (s: seq<string>)
    ensures |s| == 7 && s[0] == Bye(c)
    ensures var m := WcMatchups(c);
      && |m| == 3
      && s[1] == m[0].0 && s[2] == m[0].1 && s[3] == m[1].0 && s[4] == m[1].1
      && s[5] == m[2].0 && s[6] == m[2].1
    ensures Distinct(s)
    ensures forall t :: t in s <==> t in TeamsOf(c)
  {
    var m := WcMatchups(c);
    [Bye(c), m[0].0, m[0].1, m[1].0, m[1].1, m[2].0, m[2].1]
  }

  /** The conferences partition the fourteen teams into two groups of seven. */
  lemma ConferencesPartition()
    ensures NfcTeams !! AfcTeams
    ensures |NfcTeams| == 7 && |AfcTeams| == 7
  {
    assert |Slots(NFC)| == 7 && |Slots(AFC)| == 7;
  }

  /** Every bracket position holds a seeded team. */
  lemma SlotsSeeded(c: Conf)
    ensures forall i :: 0 <= i < |Slots(c)| ==> Slots(c)[i] in Seed
  {
  }

  /** Within a conference seeds run from 1 to 7 without repetition, and the bye
      team is the top seed. */
  lemma SeedsWellFormed(c: Conf)
    ensures forall i :: 0 <= i < |Slots(c)| ==> Slots(c)[i] in Seed && 1 <= Seed[Slots(c)[i]] <= 7
    ensures forall i, j :: 0 <= i < j < |Slots(c)| ==> Seed[Slots(c)[i]] != Seed[Slots(c)[j]]
    ensures Seed[Bye(c)] == 1
  {
    var s := Slots(c);
    match c
    case NFC =>
      assert Seed[s[0]] == 1 && Seed[s[1]] == 2 && Seed[s[2]] == 7 && Seed[s[3]] == 3;
      assert Seed[s[4]] == 6 && Seed[s[5]] == 4 && Seed[s[6]] == 5;
    case AFC =>
      assert Seed[s[0]] == 1 && Seed[s[1]] == 2 && Seed[s[2]] == 7 && Seed[s[3]] == 3;
      assert Seed[s[4]] == 6 && Seed[s[5]] == 4 && Seed[s[6]] == 5;
  }

  /** `ConferenceOf` and `TeamsInConf` agree: a team belongs to exactly the
      conference whose team set contains it. */
  lemma ConferenceOfAgreesWithTeams(c: Conf, team: string)
    ensures team in TeamsOf(c) <==> ConferenceOf(team) == Success(c)
  {
    ConferencesPartition();
  }

  /** The teams of a conference name are exactly those `ConferenceOf` places
      in that conference, where every name but "NFC" means the AFC. */
  lemma TeamsInConfMembership(conf: string, t: string)
    ensures t in TeamsInConf(conf) <==> ConferenceOf(t) == Success(if conf == "NFC" then NFC else AFC)
  {
    ConferencesPartition();
  }

  /** Position of the first winner, in list order, with the largest seed number
      in `seed` (Python's `max` keeps the first of equal maxima). */
  function WorstSeededIndex(ws: seq<string>, seed: map<string, int>): (i: nat)
    requires |ws| > 0
    requires forall t :: t in ws ==> t in seed
    ensures i < |ws|
    ensures forall j :: 0 <= j < |ws| ==> seed[ws[j]] <= seed[ws[i]]
    ensures forall j :: 0 <= j < i ==> seed[ws[j]] < seed[ws[i]]
  {
    if |ws| == 1 then 0
    else
      var init := ws[..|ws| - 1];
      var best := WorstSeededIndex(init, seed);
      assert forall j :: 0 <= j < |init| ==> init[j] == ws[j];
      if seed[ws[|ws| - 1]] > seed[ws[best]] then |ws| - 1 else best
  }

  function WorstSeeded(ws: seq<string>, seed: map<string, int>): (w: string)
    requires |ws| > 0
    requires forall t :: t in ws ==> t in seed
    ensures w in ws
    ensures forall t :: t in ws ==> seed[t] <= seed[w]
    ensures exists i :: 0 <= i < |ws| && ws[i] == w && forall j :: 0 <= j < i ==> seed[ws[j]] < seed[w]
  {
    ws[WorstSeededIndex(ws, seed)]
  }

  /** `a` occurs in `s` before an occurrence of `b`. */
  ghost predicate Before(s: seq<string>, a: string, b: string) {
    exists p, q :: 0 <= p < q < |s| && s[p] == a && s[q] == b
  }

  /** Every two elements of `r` occur in `s` in the same order. */
  ghost predicate Ordered(r: seq<string>, s: seq<string>) {
    forall i, j :: 0 <= i < j < |r| ==> Before(s, r[i], r[j])
  }

  /** `ws` without any occurrence of `x`, order kept. */
  function Without(ws: seq<string>, x: string): (r: seq<string>)
    ensures forall t :: t in r <==> t in ws && t != x
    ensures |r| + Count(ws, x) == |ws|
    ensures Distinct(ws) ==> Distinct(r)
  {
    if |ws| == 0 then []
    else
      var rest := Without(ws[1..], x);
      assert forall t :: t in ws <==> t == ws[0] || t in ws[1..];
      assert Distinct(ws) ==> Distinct(ws[1..]) && ws[0] !in ws[1..] by {
        if Distinct(ws) {
          forall i, j | 0 <= i < j < |ws| - 1
            ensures ws[1..][i] != ws[1..][j]
          {
            assert ws[1..][i] == ws[i + 1] && ws[1..][j] == ws[j + 1];
          }
          forall i | 0 <= i < |ws| - 1
            ensures ws[1..][i] != ws[0]
          {
            assert ws[1..][i] == ws[i + 1];
          }
        }
      }
      if ws[0] == x then rest
      else
        assert Distinct(ws) ==> Distinct([ws[0]] + rest) by {
          if Distinct(ws) {
            forall i, j | 0 <= i < j < |rest| + 1
              ensures ([ws[0]] + rest)[i] != ([ws[0]] + rest)[j]
            {
              if i == 0 {
                assert ([ws[0]] + rest)[j] == rest[j - 1];
              } else {
                assert ([ws[0]] + rest)[i] == rest[i - 1] && ([ws[0]] + rest)[j] == rest[j - 1];
              }
            }
          }
        }
        [ws[0]] + rest
  }

  /** `idx` lists increasing positions of `s` that hold, in turn, the elements
      of `r`: `r` is a subsequence of `s`. */
  ghost predicate Embeds(r: seq<string>, s: seq<string>, idx: seq<int>) {
    && |idx| == |r|
    && (forall i :: 0 <= i < |idx| ==> 0 <= idx[i] < |s| && s[idx[i]] == r[i])
    && (forall i, j :: 0 <= i < j < |idx| ==> idx[i] < idx[j])
  }

  /** An embedding into the tail of `s`, moved one position along. */
  lemma EmbedsTail(r: seq<string>, s: seq<string>, idx: seq<int>) returns (shifted: seq<int>)
    requires |s| > 0 && Embeds(r, s[1..], idx)
    ensures Embeds(r, s, shifted)
    ensures forall i :: 0 <= i < |shifted| ==> shifted[i] > 0
  {
    shifted := seq(|idx|, i requires 0 <= i < |idx| => idx[i] + 1);
    forall i | 0 <= i < |shifted|
      ensures 0 <= shifted[i] < |s| && s[shifted[i]] == r[i]
    {
      assert s[shifted[i]] == s[1..][idx[i]];
    }
  }

  /** The head of `s` put in front of an embedding that avoids position 0. */
  lemma EmbedsCons(r: seq<string>, s: seq<string>, idx: seq<int>)
    requires |s| > 0 && Embeds(r, s, idx) && forall i :: 0 <= i < |idx| ==> idx[i] > 0
    ensures Embeds([s[0]] + r, s, [0] + idx)
  {
    var r', idx' := [s[0]] + r, [0] + idx;
    forall i | 0 <= i < |idx'|
      ensures 0 <= idx'[i] < |s| && s[idx'[i]] == r'[i]
    {
      if i > 0 {
        assert idx'[i] == idx[i - 1] && r'[i] == r[i - 1];
      }
    }
    forall i, j | 0 <= i < j < |idx'|
      ensures idx'[i] < idx'[j]
    {
      assert idx'[j] == idx[j - 1];
      if i > 0 {
        assert idx'[i] == idx[i - 1];
      }
    }
  }

  /** The positions of `ws` that `Without(ws, x)` keeps. */
  lemma {:induction false} WithoutPositions(ws: seq<string>, x: string) returns (idx: seq<int>)
    ensures Embeds(Without(ws, x), ws, idx)
    decreases |ws|
  {
    if |ws| == 0 {
      idx := [];
    } else {
      var rest := WithoutPositions(ws[1..], x);
      var shifted := EmbedsTail(Without(ws[1..], x), ws, rest);
      if ws[0] == x {
        idx := shifted;
      } else {
        EmbedsCons(Without(ws[1..], x), ws, shifted);
        idx := [0] + shifted;
      }
    }
  }

  /** Removing a winner keeps the others in list order. */
  lemma WithoutKeepsOrder(ws: seq<string>, x: string)
    ensures Ordered(Without(ws, x), ws)
  {
    var r := Without(ws, x);
    var idx := WithoutPositions(ws, x);
    forall i, j | 0 <= i < j < |r|
      ensures Before(ws, r[i], r[j])
    {
      assert ws[idx[i]] == r[i] && ws[idx[j]] == r[j] && idx[i] < idx[j];
    }
  }

  /** The winners `Without` keeps are a subsequence of the winner list. */
  lemma WithoutIsSubsequence(ws: seq<string>, x: string)
    ensures exists idx :: Embeds(Without(ws, x), ws, idx)
  {
    var idx := WithoutPositions(ws, x);
  }

  /** `Without` keeps every other winner as often as the list holds it. */
  lemma {:induction false} WithoutCounts(ws: seq<string>, x: string, t: string)
    ensures Count(Without(ws, x), t) == if t == x then 0 else Count(ws, t)
    decreases |ws|
  {
    if |ws| > 0 {
      WithoutCounts(ws[1..], x, t);
      if ws[0] != x {
        assert ([ws[0]] + Without(ws[1..], x))[1..] == Without(ws[1..], x);
      }
    }
  }

  /** The first winner `Without` keeps sits at the first position not holding `x`. */
  lemma {:induction false} WithoutFirst(ws: seq<string>, x: string)
    requires |Without(ws, x)| >= 1
    ensures exists i ::
      && 0 <= i < |ws| && ws[i] == Without(ws, x)[0]
      && forall k :: 0 <= k < i ==> ws[k] == x
    decreases |ws|
  {
    if ws[0] == x {
      WithoutFirst(ws[1..], x);
      var i :| 0 <= i < |ws[1..]| && ws[1..][i] == Without(ws[1..], x)[0] && forall k :: 0 <= k < i ==> ws[1..][k] == x;
      assert ws[i + 1] == Without(ws, x)[0];
      forall k | 0 <= k < i + 1
        ensures ws[k] == x
      {
        if k > 0 {
          assert ws[k] == ws[1..][k - 1];
        }
      }
    } else {
      assert ws[0] == Without(ws, x)[0];
    }
  }

  /** The first two winners `Without` keeps sit at the first two positions
      not holding `x`. */
  lemma {:induction false} WithoutFirstTwo(ws: seq<string>, x: string)
    requires |Without(ws, x)| >= 2
    ensures exists i, j ::
      && 0 <= i < j < |ws| && ws[i] == Without(ws, x)[0] && ws[j] == Without(ws, x)[1]
      && forall k :: 0 <= k < j && k != i ==> ws[k] == x
    decreases |ws|
  {
    if ws[0] == x {
      WithoutFirstTwo(ws[1..], x);
      var i, j :| 0 <= i < j < |ws[1..]| && ws[1..][i] == Without(ws[1..], x)[0] && ws[1..][j] == Without(ws[1..], x)[1]
        && forall k :: 0 <= k < j && k != i ==> ws[1..][k] == x;
      assert ws[i + 1] == Without(ws, x)[0] && ws[j + 1] == Without(ws, x)[1];
      forall k | 0 <= k < j + 1 && k != i + 1
        ensures ws[k] == x
      {
        if k > 0 {
          assert ws[k] == ws[1..][k - 1];
        }
      }
    } else {
      var rest := Without(ws[1..], x);
      assert Without(ws, x) == [ws[0]] + rest;
      WithoutFirst(ws[1..], x);
      var j :| 0 <= j < |ws[1..]| && ws[1..][j] == rest[0] && forall k :: 0 <= k < j ==> ws[1..][k] == x;
      assert ws[0] == Without(ws, x)[0] && ws[j + 1] == Without(ws, x)[1];
      forall k | 0 <= k < j + 1 && k != 0
        ensures ws[k] == x
      {
        assert ws[k] == ws[1..][k - 1];
      }
    }
  }

  /** The first winner, in list order, that has no seed. */
  function Unseeded(ws: seq<string>): (r: Option<string>)
    ensures r.None? <==> forall t :: t in ws ==> t in Seed
    ensures r.Some? ==> r.value in ws && r.value !in Seed
  {
    if |ws| == 0 then None
    else if ws[0] !in Seed then Some(ws[0])
    else
      assert forall t :: t in ws <==> t == ws[0] || t in ws[1..];
      Unseeded(ws[1..])
  }

  /** Divisional round: the bye team hosts the worst-seeded wild-card winner and
      the two remaining winners play each other. */
  function DivisionalPairings(c: Conf, winners: seq<string>): (r: Result<seq<(string, string)>, Error>)
    ensures |winners| == 0 ==> r == Failure(EmptyWinners)
    ensures r.Failure? && r.error.MissingKey? ==> r.error.key in winners && r.error.key !in Seed
    ensures |winners| == 3 && Distinct(winners) && (forall t :: t in winners ==> t in Seed) ==> r.Success?
    ensures r.Success? ==>
      && |r.value| == 2
      && r.value[0].0 == Bye(c)
      && r.value[0].1 in winners && r.value[0].1 in Seed
      && (forall t :: t in winners ==> t in Seed && Seed[t] <= Seed[r.value[0].1])
      && r.value[1].0 in winners && r.value[1].1 in winners
      && r.value[1].0 != r.value[0].1 && r.value[1].1 != r.value[0].1
    ensures r.Success? && Distinct(winners) ==>
      && r.value[1].0 != r.value[1].1
      && (|winners| == 3 ==> forall t :: t in winners ==> t in {r.value[0].1, r.value[1].0, r.value[1].1})
    ensures r.Success? ==> Before(winners, r.value[1].0, r.value[1].1)
    ensures r.Success? ==>
      exists i :: 0 <= i < |winners| && winners[i] == r.value[0].1 && forall j :: 0 <= j < i ==> Seed[winners[j]] < Seed[winners[i]]
  {
    if |winners| == 0 then Failure(EmptyWinners)
    else match Unseeded(winners)
      case Some(t) => Failure(MissingKey(t))
      case None =>
        var lowest := WorstSeeded(winners, Seed);
        var others := Without(winners, lowest);
        if |others| < 2 then Failure(TooFewOpponents)
        else
          assert Distinct(winners) ==> Count(winners, lowest) == 1 by {
            if Distinct(winners) {
              CountDistinct(winners, lowest);
            }
          }
          assert Distinct(winners) && |winners| == 3 ==> |others| == 2 && others == [others[0], others[1]];
          WithoutKeepsOrder(winners, lowest);
          Success([(Bye(c), lowest), (others[0], others[1])])
  }

  /** The second divisional game is between the first two winners, in list
      order, that are not the bye team's opponent: every earlier place holds
      that opponent. */
  lemma SecondGameOrder(c: Conf, winners: seq<string>)
    ensures var r := DivisionalPairings(c, winners);
      r.Success? ==> exists i, j ::
        && 0 <= i < j < |winners| && winners[i] == r.value[1].0 && winners[j] == r.value[1].1
        && forall k :: 0 <= k < j && k != i ==> winners[k] == r.value[0].1
  {
    if DivisionalPairings(c, winners).Success? {
      var lowest := WorstSeeded(winners, Seed);
      WithoutFirstTwo(winners, lowest);
    }
  }

  /** Two winners with the same seed number, as winners from both conferences
      can have: the bye team hosts the earlier one. */
  lemma TiedSeedsKeepFirst()
    ensures DivisionalPairings(NFC, ["GB", "LAC", "CHI"]) == Success([("SEA", "GB"), ("LAC", "CHI")])
  {
    var ws := ["GB", "LAC", "CHI"];
    assert Unseeded(ws) == None;
    assert WorstSeeded(ws, Seed) == "GB";
    assert Without(ws, "GB") == ["LAC", "CHI"];
  }
}

=== FILE: conditionals.dfy ===
/** Repeated playouts of one conference and their reduction to
    champion-conditioned and not-champion-conditioned expected games. */
module Conditionals {
  import opened Wrappers
  import opened Tally
  import opened Bracket
  import opened RoundProbs
  import opened Playout

  /** Running sums over the trials so far: per champion, each team's games and
      the number of trials; per team, its games and trials when it was not the
      champion. */
  datatype Acc = Acc(
    sumsByChamp: map<string, map<string, int>>,
    champCounts: map<string, int>,
    sumsNotChamp: map<string, int>,
    cntNotChamp: map<string, int>)

  /** The simulator's three results; `None` is an undefined (NaN) expectation. */
  datatype Conditionals = Conditionals(
    condByChamp: map<string, map<string, real>>,
    expIfNotChamp: map<string, Option<real>>,
    champCounts: map<string, int>)

  /** Every table of `acc` has an entry for each team of `ts`. */
  ghost predicate Keyed(ts: set<string>, acc: Acc) {
    forall k :: k in ts ==>
      && k in acc.sumsByChamp
      && (forall t :: t in ts ==> t in acc.sumsByChamp[k])
      && k in acc.champCounts
      && k in acc.sumsNotChamp
      && k in acc.cntNotChamp
  }

  /** Every trial's champion is one of `ts` and its games are recorded for
      every team of `ts`. */
  ghost predicate Tallied(ts: set<string>, trials: seq<Trial>) {
    forall i :: 0 <= i < |trials| ==> trials[i].champion in ts && Records(ts, trials[i])
  }

  /** `tr` records the games of every team of `ts`. */
  ghost predicate Records(ts: set<string>, tr: Trial) {
    forall t :: t in ts ==> t in tr.gamesPlayed
  }

  /** The games `t` played in trial `tr` (none when it is not recorded). */
  function Games(tr: Trial, t: string): int {
    if t in tr.gamesPlayed then tr.gamesPlayed[t] else 0
  }

  /** The number of `trials` that `k` won. */
  function Wins(trials: seq<Trial>, k: string): nat {
    if |trials| == 0 then 0
    else Wins(trials[..|trials| - 1], k) + (if trials[|trials| - 1].champion == k then 1 else 0)
  }

  /** Team `t`'s games summed over the trials that `k` won. */
  function GamesWhenChampion(trials: seq<Trial>, k: string, t: string): int {
    if |trials| == 0 then 0
    else
      var last := trials[|trials| - 1];
      GamesWhenChampion(trials[..|trials| - 1], k, t) + (if last.champion == k then Games(last, t) else 0)
  }

  /** Team `t`'s games summed over the trials it did not win. */
  function GamesWhenNotChampion(trials: seq<Trial>, t: string): int {
    if |trials| == 0 then 0
    else
      var last := trials[|trials| - 1];
      GamesWhenNotChampion(trials[..|trials| - 1], t) + (if last.champion != t then Games(last, t) else 0)
  }

  /** The win counts of `acc` are those of `trials`. */
  ghost predicate TracksWins(ts: set<string>, trials: seq<Trial>, acc: Acc) {
    forall k :: k in ts ==>
      && k in acc.champCounts && acc.champCounts[k] == Wins(trials, k)
      && k in acc.cntNotChamp && acc.cntNotChamp[k] == |trials| - Wins(trials, k)
  }

  /** The per-champion game sums of `acc` are those of `trials`. */
  ghost predicate TracksChampion(ts: set<string>, trials: seq<Trial>, acc: Acc) {
    forall k, t :: k in ts && t in ts ==>
      && k in acc.sumsByChamp && t in acc.sumsByChamp[k]
      && acc.sumsByChamp[k][t] == GamesWhenChampion(trials, k, t)
  }

  /** The not-champion game sums of `acc` are those of `trials`. */
  ghost predicate TracksNotChampion(ts: set<string>, trials: seq<Trial>, acc: Acc) {
    forall t :: t in ts ==> t in acc.sumsNotChamp && acc.sumsNotChamp[t] == GamesWhenNotChampion(trials, t)
  }

  /** `acc` holds exactly the counts and sums of `trials`. */
  ghost predicate Tracks(ts: set<string>, trials: seq<Trial>, acc: Acc) {
    && Keyed(ts, acc)
    && TracksWins(ts, trials, acc)
    && TracksChampion(ts, trials, acc)
    && TracksNotChampion(ts, trials, acc)
  }

  function Init(ts: set<string>): (acc: Acc)
    ensures Tracks(ts, [], acc)
  {
    Acc(map k | k in ts :: Zeros(ts), Zeros(ts), Zeros(ts), Zeros(ts))
  }

  /** Adds one trial: its games go to its champion's sums, and to the
      not-champion sums of every other team. */
  function Step(ts: set<string>, acc: Acc, tr: Trial): (r: Acc)
    requires Keyed(ts, acc) && tr.champion in ts && Records(ts, tr)
    ensures Keyed(ts, r)
  {
    var k := tr.champion;
    var row := acc.sumsByChamp[k];
    Acc(
      acc.sumsByChamp[k := map t | t in ts :: row[t] + tr.gamesPlayed[t]],
      acc.champCounts[k := acc.champCounts[k] + 1],
      map t | t in ts :: acc.sumsNotChamp[t] + (if t != k then tr.gamesPlayed[t] else 0),
      map t | t in ts :: acc.cntNotChamp[t] + (if t != k then 1 else 0))
  }

  lemma StepWins(ts: set<string>, trials: seq<Trial>, acc: Acc, tr: Trial)
    requires Keyed(ts, acc) && TracksWins(ts, trials, acc)
    requires tr.champion in ts && Records(ts, tr)
    ensures TracksWins(ts, trials + [tr], Step(ts, acc, tr))
  {
    var all := trials + [tr];
    var r := Step(ts, acc, tr);
    assert all[..|all| - 1] == trials;
    forall k | k in ts
      ensures r.champCounts[k] == Wins(all, k)
      ensures r.cntNotChamp[k] == |all| - Wins(all, k)
    {
      assert Wins(all, k) == Wins(trials, k) + (if tr.champion == k then 1 else 0);
    }
  }

  lemma StepChampion(ts: set<string>, trials: seq<Trial>, acc: Acc, tr: Trial)
    requires Keyed(ts, acc) && TracksChampion(ts, trials, acc)
    requires tr.champion in ts && Records(ts, tr)
    ensures TracksChampion(ts, trials + [tr], Step(ts, acc, tr))
  {
    var all := trials + [tr];
    var r := Step(ts, acc, tr);
    assert all[..|all| - 1] == trials;
    forall k, t | k in ts && t in ts
      ensures r.sumsByChamp[k][t] == GamesWhenChampion(all, k, t)
    {
      assert GamesWhenChampion(all, k, t)
        == GamesWhenChampion(trials, k, t) + (if tr.champion == k then Games(tr, t) else 0);
    }
  }

  lemma StepNotChampion(ts: set<string>, trials: seq<Trial>, acc: Acc, tr: Trial)
    requires Keyed(ts, acc) && TracksNotChampion(ts, trials, acc)
    requires tr.champion in ts && Records(ts, tr)
    ensures TracksNotChampion(ts, trials + [tr], Step(ts, acc, tr))
  {
    var all := trials + [tr];
    var r := Step(ts, acc, tr);
    assert all[..|all| - 1] == trials;
    forall t | t in ts
      ensures r.sumsNotChamp[t] == GamesWhenNotChampion(all, t)
    {
      assert GamesWhenNotChampion(all, t)
        == GamesWhenNotChampion(trials, t) + (if tr.champion != t then Games(tr, t) else 0);
    }
  }

  /** Adding a trial to an accumulator that tracks `trials` gives one that
      tracks the longer sequence. */
  lemma StepTracks(ts: set<string>, trials: seq<Trial>, acc: Acc, tr: Trial)
    requires Tracks(ts, trials, acc)
    requires tr.champion in ts && Records(ts, tr)
    ensures Tracks(ts, trials + [tr], Step(ts, acc, tr))
  {
    StepWins(ts, trials, acc, tr);
    StepChampion(ts, trials, acc, tr);
    StepNotChampion(ts, trials, acc, tr);
  }

  /** Each team's number of wins, for the teams listed in `slots`. */
  function WinsMap(slots: seq<string>, trials: seq<Trial>): (w: map<string, int>)
    ensures forall k :: k in slots ==> k in w && w[k] == Wins(trials, k)
  {
    map k | k in slots :: Wins(trials, k)
  }

  /** Every trial has exactly one champion: when all champions are listed
      once in `slots`, the wins add up to the number of trials. */
  lemma {:induction false} WinsTotal(slots: seq<string>, trials: seq<Trial>)
    requires Distinct(slots)
    requires forall i :: 0 <= i < |trials| ==> trials[i].champion in slots
    ensures Sum(slots, WinsMap(slots, trials)) == |trials|
  {
    if |trials| > 0 {
      var earlier := trials[..|trials| - 1];
      var k := trials[|trials| - 1].champion;
      assert forall i :: 0 <= i < |earlier| ==> earlier[i] == trials[i];
      WinsTotal(slots, earlier);
      var w := WinsMap(slots, earlier);
      SumAdd(slots, w, k, 1);
      forall j | j in slots
        ensures w[k := w[k] + 1][j] == WinsMap(slots, trials)[j]
      {
        assert Wins(trials, j) == Wins(earlier, j) + (if k == j then 1 else 0);
      }
      SumAgree(slots, w[k := w[k] + 1], WinsMap(slots, trials));
    } else {
      SumZero(slots, WinsMap(slots, trials));
    }
  }

  /** A team wins at most every trial. */
  lemma {:induction false} WinsBound(trials: seq<Trial>, k: string)
    ensures Wins(trials, k) <= |trials|
  {
    if |trials| > 0 {
      WinsBound(trials[..|trials| - 1], k);
    }
  }

  /** The running sums after all `trials`, added in order. */
  function Accumulate(ts: set<string>, trials: seq<Trial>): (acc: Acc)
    requires Tallied(ts, trials)
    ensures Tracks(ts, trials, acc)
  {
    if |trials| == 0 then
      Init(ts)
    else
      var earlier := trials[..|trials| - 1];
      var last := trials[|trials| - 1];
      assert trials == earlier + [last];
      var acc := Accumulate(ts, earlier);
      StepTracks(ts, earlier, acc, last);
      Step(ts, acc, last)
  }

  /** Game bounds that every playout of conference `c` respects: each team
      plays at least once and at most `MostGames`, the champion exactly
      `MostGames`. */
  ghost predicate Within(c: Conf, ts: set<string>, trials: seq<Trial>) {
    && Tallied(ts, trials)
    && (forall i, t :: 0 <= i < |trials| && t in ts ==> 1 <= Games(trials[i], t) <= MostGames(c, t))
    && (forall i :: 0 <= i < |trials| ==> Games(trials[i], trials[i].champion) == MostGames(c, trials[i].champion))
  }

  lemma WithinPrefix(c: Conf, ts: set<string>, trials: seq<Trial>)
    requires Within(c, ts, trials) && |trials| > 0
    ensures Within(c, ts, trials[..|trials| - 1])
  {
    var earlier := trials[..|trials| - 1];
    assert forall i :: 0 <= i < |earlier| ==> earlier[i] == trials[i];
  }

  /** Over the trials `k` won, team `t` played between once and `MostGames`
      times per trial, and the champion itself always `MostGames`. */
  lemma {:induction false} ChampionGames(c: Conf, ts: set<string>, trials: seq<Trial>, k: string, t: string)
    requires Within(c, ts, trials) && t in ts
    ensures Wins(trials, k) <= GamesWhenChampion(trials, k, t)
    ensures GamesWhenChampion(trials, k, t) <= MostGames(c, t) * Wins(trials, k)
    ensures t == k ==> GamesWhenChampion(trials, k, t) == MostGames(c, t) * Wins(trials, k)
  {
    if |trials| > 0 {
      var earlier := trials[..|trials| - 1];
      var last := trials[|trials| - 1];
      var m := MostGames(c, t);
      WithinPrefix(c, ts, trials);
      ChampionGames(c, ts, earlier, k, t);
      var w0 := Wins(earlier, k);
      var g0 := GamesWhenChampion(earlier, k, t);
      if last.champion == k {
        assert Wins(trials, k) == w0 + 1;
        assert GamesWhenChampion(trials, k, t) == g0 + Games(last, t);
        assert 1 <= Games(last, t) <= m;
        assert t == k ==> Games(last, t) == m;
        assert m * (w0 + 1) == m * w0 + m;
      } else {
        assert Wins(trials, k) == w0;
        assert GamesWhenChampion(trials, k, t) == g0;
      }
    }
  }

  /** Over the trials `t` did not win, it played between once and `MostGames`
      times per trial. */
  lemma {:induction false} NotChampionGames(c: Conf, ts: set<string>, trials: seq<Trial>, t: string)
    requires Within(c, ts, trials) && t in ts
    ensures |trials| - Wins(trials, t) <= GamesWhenNotChampion(trials, t)
    ensures GamesWhenNotChampion(trials, t) <= MostGames(c, t) * (|trials| - Wins(trials, t))
  {
    if |trials| > 0 {
      var earlier := trials[..|trials| - 1];
      var last := trials[|trials| - 1];
      var m := MostGames(c, t);
      WithinPrefix(c, ts, trials);
      NotChampionGames(c, ts, earlier, t);
      var d0 := |earlier| - Wins(earlier, t);
      var g0 := GamesWhenNotChampion(earlier, t);
      if last.champion != t {
        assert |trials| - Wins(trials, t) == d0 + 1;
        assert GamesWhenNotChampion(trials, t) == g0 + Games(last, t);
        assert 1 <= Games(last, t) <= m;
        assert m * (d0 + 1) == m * d0 + m;
      } else {
        assert |trials| - Wins(trials, t) == d0;
        assert GamesWhenNotChampion(trials, t) == g0;
      }
    }
  }

  /** The mean of values summing to `s` over `n` trials. */
  function Mean(s: int, n: int): real
    requires n > 0
  {
    s as real / n as real
  }

  /** Team `t`'s mean games over the trials `k` won. */
  function ChampionMean(acc: Acc, k: string, t: string): real
    requires k in acc.sumsByChamp && t in acc.sumsByChamp[k]
    requires k in acc.champCounts && acc.champCounts[k] > 0
  {
    Mean(acc.sumsByChamp[k][t], acc.champCounts[k])
  }

  /** Team `t`'s mean games over the trials it did not win. */
  function NotChampionMean(acc: Acc, t: string): real
    requires t in acc.sumsNotChamp && t in acc.cntNotChamp && acc.cntNotChamp[t] > 0
  {
    Mean(acc.sumsNotChamp[t], acc.cntNotChamp[t])
  }

  /** A mean of `n` values in `lo..hi` lies in `lo..hi`. */
  lemma MeanWithin(s: int, n: int, lo: int, hi: int)
    requires n > 0 && lo * n <= s <= hi * n
    ensures lo as real <= Mean(s, n) <= hi as real
  {
    var q := Mean(s, n);
    assert q * n as real == s as real;
    assert (lo as real) * (n as real) <= q * (n as real) <= (hi as real) * (n as real);
  }

  /** The mean games of every team, for each team that won at least once. */
  function ChampionTable(ts: set<string>, acc: Acc): (cond: map<string, map<string, real>>)
    requires Keyed(ts, acc)
    ensures forall k :: k in cond <==> k in ts && acc.champCounts[k] > 0
    ensures forall k :: k in cond ==> cond[k].Keys == ts
    ensures forall k, t :: k in cond && t in ts ==> cond[k][t] == ChampionMean(acc, k, t)
  {
    map k | k in ts && acc.champCounts[k] > 0 :: map t | t in ts :: ChampionMean(acc, k, t)
  }

  /** Each team's mean games when it did not win; none for a team that won
      every trial. */
  function NotChampionTable(ts: set<string>, acc: Acc): (exp: map<string, Option<real>>)
    requires Keyed(ts, acc)
    ensures exp.Keys == ts
    ensures forall t :: t in ts ==>
      && (exp[t].None? <==> acc.cntNotChamp[t] <= 0)
      && (exp[t].Some? ==> exp[t].value == NotChampionMean(acc, t))
  {
    map t | t in ts :: if acc.cntNotChamp[t] > 0 then Some(NotChampionMean(acc, t)) else None
  }

  /** Each team's number of titles. */
  function CountTable(ts: set<string>, acc: Acc): (counts: map<string, int>)
    requires Keyed(ts, acc)
    ensures counts.Keys == ts
    ensures forall k :: k in ts ==> counts[k] == acc.champCounts[k]
  {
    map k | k in ts :: acc.champCounts[k]
  }

  /** Divides each running sum by its count; a team that won every trial has
      no not-champion expectation. */
  function Reduce(ts: set<string>, acc: Acc): (r: Conditionals)
    requires Keyed(ts, acc)
    ensures r.champCounts.Keys == ts
    ensures forall k :: k in ts ==> r.champCounts[k] == acc.champCounts[k]
    ensures forall k :: k in r.condByChamp <==> k in ts && acc.champCounts[k] > 0
    ensures forall k :: k in r.condByChamp ==> r.condByChamp[k].Keys == ts
    ensures forall k, t :: k in r.condByChamp && t in ts ==> r.condByChamp[k][t] == ChampionMean(acc, k, t)
    ensures r.expIfNotChamp.Keys == ts
    ensures forall t :: t in ts ==>
      && (r.expIfNotChamp[t].None? <==> acc.cntNotChamp[t] <= 0)
      && (r.expIfNotChamp[t].Some? ==> r.expIfNotChamp[t].value == NotChampionMean(acc, t))
  {
    Conditionals(ChampionTable(ts, acc), NotChampionTable(ts, acc), CountTable(ts, acc))
  }

  /** Which entries exist: counts for exactly the teams `ts`, adding up to
      `n`; a conditional row, keyed by exactly the teams `ts`, for exactly the
      teams that won at least once; and an undefined not-champion expectation
      exactly for a team that won all `n` trials. */
  ghost predicate ShapeSound(ts: set<string>, slots: seq<string>, n: nat, res: Conditionals) {
    && res.champCounts.Keys == ts
    && (forall k :: k in ts ==> 0 <= res.champCounts[k] <= n)
    && (forall k :: k in slots ==> k in res.champCounts)
    && Sum(slots, res.champCounts) == n
    && (forall k :: k in res.condByChamp <==> k in ts && res.champCounts[k] > 0)
    && (forall k :: k in res.condByChamp ==> res.condByChamp[k].Keys == ts)
    && res.expIfNotChamp.Keys == ts
    && (forall t :: t in ts ==> (res.expIfNotChamp[t].None? <==> res.champCounts[t] == n))
  }

  /** Every champion-conditioned expectation lies within the games a team can
      play, and a champion's own expectation is its maximum. */
  ghost predicate ChampionRange(c: Conf, ts: set<string>, res: Conditionals) {
    && (forall k, t :: k in res.condByChamp && t in ts && t in res.condByChamp[k] ==>
          1.0 <= res.condByChamp[k][t] <= MostGames(c, t) as real)
    && (forall k :: k in res.condByChamp && k in res.condByChamp[k] ==>
          res.condByChamp[k][k] == MostGames(c, k) as real)
  }

  /** Every defined not-champion expectation lies within the games a team can
      play. */
  ghost predicate NotChampionRange(c: Conf, ts: set<string>, res: Conditionals) {
    forall t :: t in ts && t in res.expIfNotChamp && res.expIfNotChamp[t].Some? ==>
      1.0 <= res.expIfNotChamp[t].value <= MostGames(c, t) as real
  }

  /** What the simulator promises about its results for conference `c` after
      `n` trials. */
  ghost predicate Sound(c: Conf, n: nat, res: Conditionals) {
    && ShapeSound(TeamsOf(c), Slots(c), n, res)
    && ChampionRange(c, TeamsOf(c), res)
    && NotChampionRange(c, TeamsOf(c), res)
  }

  /** Each count is a number of wins over `trials`. */
  ghost predicate CountsOf(ts: set<string>, trials: seq<Trial>, res: Conditionals) {
    forall k :: k in ts ==> k in res.champCounts && res.champCounts[k] == Wins(trials, k)
  }

  /** Each champion-conditioned expectation is the team's games over the
      trials the champion won, divided by their number. */
  ghost predicate ChampionMeans(ts: set<string>, trials: seq<Trial>, res: Conditionals) {
    forall k, t :: k in res.condByChamp && t in ts ==>
      && t in res.condByChamp[k]
      && Wins(trials, k) > 0
      && res.condByChamp[k][t] == Mean(GamesWhenChampion(trials, k, t), Wins(trials, k))
  }

  /** Each defined not-champion expectation is the team's games over the
      trials it did not win, divided by their number. */
  ghost predicate NotChampionMeans(ts: set<string>, trials: seq<Trial>, res: Conditionals) {
    forall t :: t in ts && t in res.expIfNotChamp && res.expIfNotChamp[t].Some? ==>
      && |trials| - Wins(trials, t) > 0
      && res.expIfNotChamp[t].value == Mean(GamesWhenNotChampion(trials, t), |trials| - Wins(trials, t))
  }

  /** The results are the empirical frequencies and means over `trials`. */
  ghost predicate Means(ts: set<string>, trials: seq<Trial>, res: Conditionals) {
    CountsOf(ts, trials, res) && ChampionMeans(ts, trials, res) && NotChampionMeans(ts, trials, res)
  }

  lemma ReduceShape(ts: set<string>, slots: seq<string>, trials: seq<Trial>, acc: Acc)
    requires Distinct(slots) && forall t :: t in slots <==> t in ts
    requires Tallied(ts, trials) && Keyed(ts, acc) && TracksWins(ts, trials, acc)
    ensures ShapeSound(ts, slots, |trials|, Reduce(ts, acc))
  {
    var res := Reduce(ts, acc);
    assert forall i :: 0 <= i < |trials| ==> trials[i].champion in slots;
    WinsTotal(slots, trials);
    SumAgree(slots, res.champCounts, WinsMap(slots, trials));
    forall k | k in ts
      ensures 0 <= res.champCounts[k] <= |trials|
      ensures res.expIfNotChamp[k].None? <==> res.champCounts[k] == |trials|
    {
      WinsBound(trials, k);
    }
  }

  lemma ChampionMeanRange(c: Conf, ts: set<string>, trials: seq<Trial>, acc: Acc, k: string, t: string)
    requires Within(c, ts, trials) && TracksWins(ts, trials, acc) && TracksChampion(ts, trials, acc)
    requires k in ts && t in ts && acc.champCounts[k] > 0
    ensures 1.0 <= ChampionMean(acc, k, t) <= MostGames(c, t) as real
    ensures t == k ==> ChampionMean(acc, k, t) == MostGames(c, t) as real
  {
    var m := MostGames(c, t);
    var s, n := acc.sumsByChamp[k][t], acc.champCounts[k];
    ChampionGames(c, ts, trials, k, t);
    assert n <= s <= m * n;
    MeanWithin(s, n, 1, m);
    if t == k {
      assert s == m * n;
      MeanWithin(s, n, m, m);
    }
  }

  lemma NotChampionMeanRange(c: Conf, ts: set<string>, trials: seq<Trial>, acc: Acc, t: string)
    requires Within(c, ts, trials) && TracksWins(ts, trials, acc) && TracksNotChampion(ts, trials, acc)
    requires t in ts && acc.cntNotChamp[t] > 0
    ensures 1.0 <= NotChampionMean(acc, t) <= MostGames(c, t) as real
  {
    var m := MostGames(c, t);
    var s, n := acc.sumsNotChamp[t], acc.cntNotChamp[t];
    NotChampionGames(c, ts, trials, t);
    assert n <= s <= m * n;
    MeanWithin(s, n, 1, m);
  }

  /** The champion-conditioned means that `acc` yields are within range. */
  ghost predicate ChampionMeansWithin(c: Conf, ts: set<string>, acc: Acc)
    requires Keyed(ts, acc)
  {
    forall k, t :: k in ts && t in ts && acc.champCounts[k] > 0 ==>
      && 1.0 <= ChampionMean(acc, k, t) <= MostGames(c, t) as real
      && (t == k ==> ChampionMean(acc, k, t) == MostGames(c, t) as real)
  }

  /** The not-champion means that `acc` yields are within range. */
  ghost predicate NotChampionMeansWithin(c: Conf, ts: set<string>, acc: Acc)
    requires Keyed(ts, acc)
  {
    forall t :: t in ts && acc.cntNotChamp[t] > 0 ==>
      1.0 <= NotChampionMean(acc, t) <= MostGames(c, t) as real
  }

  lemma AccChampionRange(c: Conf, ts: set<string>, trials: seq<Trial>, acc: Acc)
    requires Within(c, ts, trials) && Keyed(ts, acc)
    requires TracksWins(ts, trials, acc) && TracksChampion(ts, trials, acc)
    ensures ChampionMeansWithin(c, ts, acc)
  {
    forall k, t | k in ts && t in ts && acc.champCounts[k] > 0
      ensures 1.0 <= ChampionMean(acc, k, t) <= MostGames(c, t) as real
      ensures t == k ==> ChampionMean(acc, k, t) == MostGames(c, t) as real
    {
      ChampionMeanRange(c, ts, trials, acc, k, t);
    }
  }

  lemma AccNotChampionRange(c: Conf, ts: set<string>, trials: seq<Trial>, acc: Acc)
    requires Within(c, ts, trials) && Keyed(ts, acc)
    requires TracksWins(ts, trials, acc) && TracksNotChampion(ts, trials, acc)
    ensures NotChampionMeansWithin(c, ts, acc)
  {
    forall t | t in ts && acc.cntNotChamp[t] > 0
      ensures 1.0 <= NotChampionMean(acc, t) <= MostGames(c, t) as real
    {
      NotChampionMeanRange(c, ts, trials, acc, t);
    }
  }

  lemma ReduceChampionRange(c: Conf, ts: set<string>, acc: Acc)
    requires Keyed(ts, acc) && ChampionMeansWithin(c, ts, acc)
    ensures ChampionRange(c, ts, Reduce(ts, acc))
  {
    var res := Reduce(ts, acc);
    forall k, t | k in res.condByChamp && t in ts && t in res.condByChamp[k]
      ensures 1.0 <= res.condByChamp[k][t] <= MostGames(c, t) as real
    {
      assert k in ts && acc.champCounts[k] > 0;
      var x, q := res.condByChamp[k][t], ChampionMean(acc, k, t);
      assert x == q;
      assert 1.0 <= q <= MostGames(c, t) as real;
    }
    forall k | k in res.condByChamp && k in res.condByChamp[k]
      ensures res.condByChamp[k][k] == MostGames(c, k) as real
    {
      assert k in ts && acc.champCounts[k] > 0;
      assert res.condByChamp[k][k] == ChampionMean(acc, k, k);
    }
  }

  lemma ReduceNotChampionRange(c: Conf, ts: set<string>, acc: Acc)
    requires Keyed(ts, acc) && NotChampionMeansWithin(c, ts, acc)
    ensures NotChampionRange(c, ts, Reduce(ts, acc))
  {
    var res := Reduce(ts, acc);
    forall t | t in ts && t in res.expIfNotChamp && res.expIfNotChamp[t].Some?
      ensures 1.0 <= res.expIfNotChamp[t].value <= MostGames(c, t) as real
    {
      assert acc.cntNotChamp[t] > 0;
      assert res.expIfNotChamp[t].value == NotChampionMean(acc, t);
    }
  }

  lemma ChampionMeanOf(ts: set<string>, trials: seq<Trial>, acc: Acc, k: string, t: string)
    requires TracksWins(ts, trials, acc) && TracksChampion(ts, trials, acc)
    requires k in ts && t in ts && acc.champCounts[k] > 0
    ensures Wins(trials, k) > 0
    ensures ChampionMean(acc, k, t) == Mean(GamesWhenChampion(trials, k, t), Wins(trials, k))
  {
  }

  lemma NotChampionMeanOf(ts: set<string>, trials: seq<Trial>, acc: Acc, t: string)
    requires TracksWins(ts, trials, acc) && TracksNotChampion(ts, trials, acc)
    requires t in ts && acc.cntNotChamp[t] > 0
    ensures |trials| - Wins(trials, t) > 0
    ensures NotChampionMean(acc, t) == Mean(GamesWhenNotChampion(trials, t), |trials| - Wins(trials, t))
  {
  }

  lemma ReduceChampionMeans(ts: set<string>, trials: seq<Trial>, acc: Acc)
    requires Keyed(ts, acc) && TracksWins(ts, trials, acc) && TracksChampion(ts, trials, acc)
    ensures CountsOf(ts, trials, Reduce(ts, acc))
    ensures ChampionMeans(ts, trials, Reduce(ts, acc))
  {
    var res := Reduce(ts, acc);
    forall k, t | k in res.condByChamp && t in ts
      ensures t in res.condByChamp[k]
      ensures Wins(trials, k) > 0
      ensures res.condByChamp[k][t] == Mean(GamesWhenChampion(trials, k, t), Wins(trials, k))
    {
      ChampionMeanOf(ts, trials, acc, k, t);
    }
  }

  lemma ReduceNotChampionMeans(ts: set<string>, trials: seq<Trial>, acc: Acc)
    requires Keyed(ts, acc) && TracksWins(ts, trials, acc) && TracksNotChampion(ts, trials, acc)
    ensures NotChampionMeans(ts, trials, Reduce(ts, acc))
  {
    var res := Reduce(ts, acc);
    forall t | t in ts && t in res.expIfNotChamp && res.expIfNotChamp[t].Some?
      ensures |trials| - Wins(trials, t) > 0
      ensures res.expIfNotChamp[t].value == Mean(GamesWhenNotChampion(trials, t), |trials| - Wins(trials, t))
    {
      NotChampionMeanOf(ts, trials, acc, t);
    }
  }

  /** The six draws that trial `i` consumes, in the order the playout takes
      them. */
  function Chunk(draws: seq<real>, i: nat): (d: seq<real>)
    requires |draws| >= 6 * (i + 1)
    ensures |d| == 6
    ensures forall j :: 0 <= j < 6 ==> d[j] == draws[6 * i + j]
  {
    draws[6 * i..6 * i + 6]
  }

  /** `n` independent playouts by `once`, stopping at the first one that
      fails; trial `i` consumes draws `6i` to `6i + 5`. */
  function RunTrials(once: seq<real> --> Result<Trial, Error>, draws: seq<real>, n: nat): (r: Result<seq<Trial>, Error>)
    requires |draws| >= 6 * n
    requires forall i :: 0 <= i < n ==> once.requires(Chunk(draws, i))
    ensures (forall i :: 0 <= i < n ==> once(Chunk(draws, i)).Success?) <==> r.Success?
    ensures r.Failure? ==>
      exists i :: 0 <= i < n && once(Chunk(draws, i)) == Failure(r.error)
        && forall j :: 0 <= j < i ==> once(Chunk(draws, j)).Success?
    ensures r.Success? ==> |r.value| == n
    ensures r.Success? ==> forall i :: 0 <= i < n ==> once(Chunk(draws, i)) == Success(r.value[i])
  {
    if n == 0 then Success([])
    else
      match RunTrials(once, draws, n - 1)
      case Failure(e) => Failure(e)
      case Success(earlier) =>
        match once(Chunk(draws, n - 1))
        case Failure(e) => Failure(e)
        case Success(last) =>
          var all := earlier + [last];
          assert forall i :: 0 <= i < n - 1 ==> all[i] == earlier[i];
          Success(all)
  }

  /** One playout of conference `c`, as a function of its six draws. */
  function Playouts(c: Conf, probs: RoundWinProbs): (once: seq<real> --> Result<Trial, Error>)
    ensures forall d :: |d| == 6 ==> once.requires(d) && once(d) == SimulateOnce(c, probs, d)
  {
    d requires |d| == 6 => SimulateOnce(c, probs, d)
  }

  /** The loop count: a non-positive number of simulations runs no trial. */
  function Iterations(nSims: int): nat {
    if nSims > 0 then nSims else 0
  }

  /** Runs `nSims` playouts of conference `c` and reduces them to champion
      counts and conditional expectations. */
  function SimulateConditionals(c: Conf, probs: RoundWinProbs, nSims: int, draws: seq<real>): (r: Result<Conditionals, Error>)
    requires |draws| >= 6 * Iterations(nSims)
    ensures Covers(probs, TeamsOf(c)) ==> r.Success?
    ensures r.Failure? ==> r.error.MissingKey? && r.error.key in TeamsOf(c)
    ensures r.Success? <==> RunTrials(Playouts(c, probs), draws, Iterations(nSims)).Success?
    ensures r.Failure? ==> r.error == RunTrials(Playouts(c, probs), draws, Iterations(nSims)).error
    ensures r.Success? ==> Sound(c, Iterations(nSims), r.value)
    ensures r.Success? ==>
      && RunTrials(Playouts(c, probs), draws, Iterations(nSims)).Success?
      && Means(TeamsOf(c), RunTrials(Playouts(c, probs), draws, Iterations(nSims)).value, r.value)
  {
    var n := Iterations(nSims);
    var once := Playouts(c, probs);
    assert forall i :: 0 <= i < n ==> once.requires(Chunk(draws, i));
    var run := RunTrials(once, draws, n);
    if run.Failure? then
      var i :| 0 <= i < n && once(Chunk(draws, i)) == Failure(run.error);
      assert SimulateOnce(c, probs, Chunk(draws, i)).Failure?;
      Failure(run.error)
    else
      var trials := run.value;
      var ts := TeamsOf(c);
      TrialsValid(c, probs, draws, n, trials);
      var acc := Accumulate(ts, trials);
      ReduceShape(ts, Slots(c), trials, acc);
      AccChampionRange(c, ts, trials, acc);
      AccNotChampionRange(c, ts, trials, acc);
      ReduceChampionRange(c, ts, acc);
      ReduceNotChampionRange(c, ts, acc);
      ReduceChampionMeans(ts, trials, acc);
      ReduceNotChampionMeans(ts, trials, acc);
      Success(Reduce(ts, acc))
  }

  /** With no trial to run, whatever the tables hold: no champion-conditioned
      entry, every not-champion expectation undefined, and every count zero. */
  lemma ZeroTrials(c: Conf, probs: RoundWinProbs, nSims: int, draws: seq<real>)
    requires nSims <= 0
    ensures var r := SimulateConditionals(c, probs, nSims, draws);
      && r.Success?
      && r.value.condByChamp == map[]
      && r.value.expIfNotChamp.Keys == TeamsOf(c)
      && (forall t :: t in TeamsOf(c) ==> r.value.expIfNotChamp[t] == None && r.value.champCounts[t] == 0)
  {
    var r := SimulateConditionals(c, probs, nSims, draws);
    assert RunTrials(Playouts(c, probs), draws, 0).Success?;
    assert Sound(c, 0, r.value);
  }

  /** Trials that are playouts of conference `c` keep its game bounds. */
  lemma TrialsValid(c: Conf, probs: RoundWinProbs, draws: seq<real>, n: nat, trials: seq<Trial>)
    requires |draws| >= 6 * n && |trials| == n
    requires forall i :: 0 <= i < n ==> SimulateOnce(c, probs, Chunk(draws, i)) == Success(trials[i])
    ensures Within(c, TeamsOf(c), trials)
  {
    forall i | 0 <= i < n
      ensures ValidTrial(c, trials[i])
    {
      TrialValid(c, probs, Chunk(draws, i), trials[i]);
    }
  }

  /** A trial one playout produces keeps the game bounds. */
  lemma TrialValid(c: Conf, probs: RoundWinProbs, d: seq<real>, t: Trial)
    requires |d| == 6 && SimulateOnce(c, probs, d) == Success(t)
    ensures ValidTrial(c, t)
  {
  }
}

=== FILE: odds.dfy ===
/** One row of the loaded win-odds table: a team's cumulative chances to reach
    each later round (`None` where the table holds no number) and whether it
    plays a wild-card game. */
module Odds {
  import opened Wrappers

  datatype OddsRow = OddsRow(
    team: string,
    hasWc: bool,
    reachDiv: Option<real>,
    reachConf: Option<real>,
    reachSb: Option<real>)

  /** The most games a team can play: four with a wild-card game, three with a bye. */
  function MaxGames(hasWc: bool): (g: real)
    ensures g == 3.0 || g == 4.0
    ensures hasWc <==> g == 4.0
  {
    if hasWc then 4.0 else 3.0
  }

  predicate Positive(p: Option<real>) {
    p.Some? && p.value > 0.0
  }
}

=== FILE: playout.dfy ===
/** One playout of a conference bracket: three wild-card games, two
    divisional games after reseeding, and the conference championship. The
    random generator is replaced by six draws, one per game; a generator's
    draws lie in [0, 1), but no member here depends on that range except
    `PlayCertain`, which states what it gives. */
module Playout {
  import opened Wrappers
  import opened Tally
  import opened Bracket
  import opened RoundProbs

  /** One game. `a` is the team whose win probability decides it. */
  datatype Game = Game(a: string, b: string, winner: string) {
    predicate Decided() {
      winner == a || winner == b
    }

    function Loser(): string {
      if winner == a then b else a
    }

    function Lost(t: string): nat {
      if Loser() == t then 1 else 0
    }

    /** Number of times `t` takes part: once per side it plays on. */
    function Appearances(t: string): nat {
      (if a == t then 1 else 0) + (if b == t then 1 else 0)
    }
  }

  /** The six games of one conference playout, in the order they are played. */
  datatype Playoff = Playoff(wc1: Game, wc2: Game, wc3: Game, div1: Game, div2: Game, title: Game) {
    function Champion(): string {
      title.winner
    }

    function Appearances(t: string): nat {
      wc1.Appearances(t) + wc2.Appearances(t) + wc3.Appearances(t)
        + div1.Appearances(t) + div2.Appearances(t) + title.Appearances(t)
    }

    function Losses(t: string): nat {
      wc1.Lost(t) + wc2.Lost(t) + wc3.Lost(t) + div1.Lost(t) + div2.Lost(t) + title.Lost(t)
    }
  }

  /** The result of one playout: the champion and each team's games played. */
  datatype Trial = Trial(champion: string, gamesPlayed: map<string, int>)

  /** `a` wins exactly when the draw falls below its win probability; an
      undefined probability never lets `a` win. */
  function Play(a: string, b: string, pA: Option<real>, draw: real): (w: string)
    ensures w == a || w == b
    ensures pA.Some? && draw < pA.value ==> w == a
    ensures a != b ==> (w == a <==> pA.Some? && draw < pA.value)
  {
    if pA.Some? && draw < pA.value then a else b
  }

  /** With a draw in [0, 1), probability 1 always picks `a`, and probability 0
      or an undefined one always picks `b`. */
  lemma PlayCertain(a: string, b: string, pA: Option<real>, draw: real)
    requires 0.0 <= draw < 1.0
    ensures pA.Some? && pA.value >= 1.0 ==> Play(a, b, pA, draw) == a
    ensures pA.None? || pA.value <= 0.0 ==> Play(a, b, pA, draw) == b
  {
  }

  function Lookup(table: map<string, Option<real>>, team: string): (r: Result<Option<real>, Error>)
    ensures r.Success? <==> team in table
    ensures r.Success? ==> r.value == table[team]
    ensures r.Failure? ==> r.error == MissingKey(team)
  {
    if team in table then Success(table[team]) else Failure(MissingKey(team))
  }

  /** The game between `a` and `b` decided by `draw` against `a`'s entry in
      `table`. */
  function PlayGame(a: string, b: string, table: map<string, Option<real>>, draw: real): (r: Result<Game, Error>)
    ensures r.Success? <==> a in table
    ensures r.Failure? ==> r.error == MissingKey(a)
    ensures r.Success? ==> r.value.a == a && r.value.b == b && r.value.Decided()
    ensures r.Success? ==> Decides(r.value, table, draw)
  {
    var p :- Lookup(table, a);
    Success(Game(a, b, Play(a, b, p, draw)))
  }

  predicate Decides(g: Game, table: map<string, Option<real>>, draw: real) {
    g.a in table && g.winner == Play(g.a, g.b, table[g.a], draw)
  }

  /** Every team of `ts` has an entry in all three probability tables. */
  predicate Covers(probs: RoundWinProbs, ts: set<string>) {
    forall t :: t in ts ==> t in probs.pWc && t in probs.pDiv && t in probs.pCc
  }

  /** `p` is a playout of conference `c`'s bracket: the fixed wild-card games,
      divisional games paired by the reseeding rule from the wild-card winners,
      and a championship between the two divisional winners. */
  predicate Follows(c: Conf, p: Playoff) {
    var m := WcMatchups(c);
    && p.wc1.a == m[0].0 && p.wc1.b == m[0].1
    && p.wc2.a == m[1].0 && p.wc2.b == m[1].1
    && p.wc3.a == m[2].0 && p.wc3.b == m[2].1
    && DivisionalPairings(c, [p.wc1.winner, p.wc2.winner, p.wc3.winner])
         == Success([(p.div1.a, p.div1.b), (p.div2.a, p.div2.b)])
    && p.title.a == p.div1.winner && p.title.b == p.div2.winner
    && p.wc1.Decided() && p.wc2.Decided() && p.wc3.Decided()
    && p.div1.Decided() && p.div2.Decided() && p.title.Decided()
  }

  /** Game `i` of `p` is decided by draw `i` against the win probability of the
      round it belongs to. */
  predicate DecidedBy(p: Playoff, probs: RoundWinProbs, draws: seq<real>)
    requires |draws| == 6
  {
    && Decides(p.wc1, probs.pWc, draws[0])
    && Decides(p.wc2, probs.pWc, draws[1])
    && Decides(p.wc3, probs.pWc, draws[2])
    && Decides(p.div1, probs.pDiv, draws[3])
    && Decides(p.div2, probs.pDiv, draws[4])
    && Decides(p.title, probs.pCc, draws[5])
  }

  /** One round: each pair plays once, the pair's first team deciding it with
      its entry in `table` against the next draw. Stops at the first pair whose
      first team has no entry. */
  function PlayRound(pairs: seq<(string, string)>, table: map<string, Option<real>>, draws: seq<real>): (r: Result<seq<Game>, Error>)
    requires |draws| == |pairs|
    ensures r.Success? <==> forall i :: 0 <= i < |pairs| ==> pairs[i].0 in table
    ensures r.Failure? ==>
      && r.error.MissingKey? && r.error.key !in table
      && exists i :: 0 <= i < |pairs| && pairs[i].0 == r.error.key && forall j :: 0 <= j < i ==> pairs[j].0 in table
    ensures r.Success? ==>
      && |r.value| == |pairs|
      && forall i :: 0 <= i < |pairs| ==>
        && r.value[i].a == pairs[i].0 && r.value[i].b == pairs[i].1
        && r.value[i].Decided() && Decides(r.value[i], table, draws[i])
  {
    if |pairs| == 0 then Success([])
    else
      var g :- PlayGame(pairs[0].0, pairs[0].1, table, draws[0]);
      var rest :- PlayRound(pairs[1..], table, draws[1..]);
      Success([g] + rest)
  }

  /** A round whose first teams all come from `ts` fails only on a team of
      `ts`, and cannot fail when `table` has every team of `ts`. */
  lemma PlayRoundWithin(pairs: seq<(string, string)>, table: map<string, Option<real>>, draws: seq<real>, ts: set<string>)
    requires |draws| == |pairs|
    requires forall i :: 0 <= i < |pairs| ==> pairs[i].0 in ts
    ensures (forall t :: t in ts ==> t in table) ==> PlayRound(pairs, table, draws).Success?
    ensures PlayRound(pairs, table, draws).Failure? ==>
      PlayRound(pairs, table, draws).error.MissingKey? && PlayRound(pairs, table, draws).error.key in ts
  {
  }

  /** `wc` holds the three wild-card games of conference `c`, in order. */
  predicate WildCardsOf(c: Conf, wc: seq<Game>) {
    var m := WcMatchups(c);
    && |wc| == 3
    && (forall i :: 0 <= i < 3 ==> wc[i].a == m[i].0 && wc[i].b == m[i].1 && wc[i].Decided())
  }

  function Winners(wc: seq<Game>): (ws: seq<string>)
    ensures |ws| == |wc| && forall i :: 0 <= i < |wc| ==> ws[i] == wc[i].winner
  {
    seq(|wc|, i requires 0 <= i < |wc| => wc[i].winner)
  }

  /** One winner from each of three disjoint pairs of distinct teams gives
      three different teams. */
  lemma WinnersDistinct(s: seq<string>, w1: string, w2: string, w3: string)
    requires |s| == 7 && Distinct(s)
    requires (w1 == s[1] || w1 == s[2]) && (w2 == s[3] || w2 == s[4]) && (w3 == s[5] || w3 == s[6])
    ensures Distinct([w1, w2, w3])
  {
    assert s[1] != s[3] && s[1] != s[4] && s[2] != s[3] && s[2] != s[4];
    assert s[1] != s[5] && s[1] != s[6] && s[2] != s[5] && s[2] != s[6];
    assert s[3] != s[5] && s[3] != s[6] && s[4] != s[5] && s[4] != s[6];
    var w := [w1, w2, w3];
    assert w[0] != w[1] && w[0] != w[2] && w[1] != w[2];
  }

  /** The wild-card winners are three different seeded teams of the conference,
      none of them the bye team. */
  lemma WildCardWinners(c: Conf, wc: seq<Game>)
    requires WildCardsOf(c, wc)
    ensures Winners(wc) == [wc[0].winner, wc[1].winner, wc[2].winner]
    ensures Distinct(Winners(wc))
    ensures forall w :: w in Winners(wc) ==> w in Seed && w in TeamsOf(c) && w != Bye(c)
  {
    var s := Slots(c);
    var m := WcMatchups(c);
    var ws := Winners(wc);
    assert ws == [wc[0].winner, wc[1].winner, wc[2].winner];
    assert wc[0].a == s[1] && wc[0].b == s[2] && wc[0].Decided();
    assert wc[1].a == s[3] && wc[1].b == s[4] && wc[1].Decided();
    assert wc[2].a == s[5] && wc[2].b == s[6] && wc[2].Decided();
    WinnersDistinct(s, wc[0].winner, wc[1].winner, wc[2].winner);
    SlotsSeeded(c);
    assert forall w :: w in ws ==> w == s[1] || w == s[2] || w == s[3] || w == s[4] || w == s[5] || w == s[6];
  }

  /** The divisional pairs after a wild-card round: two games, all four teams
      from the conference. */
  lemma DivisionalTeams(c: Conf, wc: seq<Game>)
    requires WildCardsOf(c, wc)
    ensures var r := DivisionalPairings(c, [wc[0].winner, wc[1].winner, wc[2].winner]);
      && r.Success? && |r.value| == 2
      && r.value[0].0 in TeamsOf(c) && r.value[0].1 in TeamsOf(c)
      && r.value[1].0 in TeamsOf(c) && r.value[1].1 in TeamsOf(c)
  {
    WildCardWinners(c, wc);
    var winners := [wc[0].winner, wc[1].winner, wc[2].winner];
    var ts := TeamsOf(c);
    assert Bye(c) == Slots(c)[0] && Bye(c) in ts;
    assert winners[0] in ts && winners[1] in ts && winners[2] in ts;
    var r := DivisionalPairings(c, winners);
    assert r.Success?;
    var v := r.value;
    assert v[0].0 == Bye(c);
    assert v[0].1 in winners && v[1].0 in winners && v[1].1 in winners;
  }

  /** The wild-card round of conference `c`. */
  function WildCardRound(c: Conf, probs: RoundWinProbs, draws: seq<real>): (r: Result<seq<Game>, Error>)
    requires |draws| == 3
    ensures Covers(probs, TeamsOf(c)) ==> r.Success?
    ensures r.Failure? ==> r.error.MissingKey? && r.error.key in TeamsOf(c)
    ensures r.Success? <==> forall i :: 0 <= i < 3 ==> WcMatchups(c)[i].0 in probs.pWc
    ensures r.Failure? ==>
      exists i :: 0 <= i < 3 && r.error == MissingKey(WcMatchups(c)[i].0) && WcMatchups(c)[i].0 !in probs.pWc
        && forall j :: 0 <= j < i ==> WcMatchups(c)[j].0 in probs.pWc
    ensures r.Success? ==> WildCardsOf(c, r.value)
    ensures r.Success? ==> forall i :: 0 <= i < 3 ==> Decides(r.value[i], probs.pWc, draws[i])
  {
    var m := WcMatchups(c);
    var s := Slots(c);
    assert s[1] in TeamsOf(c) && s[3] in TeamsOf(c) && s[5] in TeamsOf(c);
    PlayRoundWithin(m, probs.pWc, draws, TeamsOf(c));
    PlayRound(m, probs.pWc, draws)
  }

  /** The divisional round that follows the wild-card games `wc`: the pairs
      the reseeding rule gives, each decided by one draw. */
  function DivisionalRound(c: Conf, probs: RoundWinProbs, wc: seq<Game>, draws: seq<real>): (r: Result<seq<Game>, Error>)
    requires |draws| == 2 && WildCardsOf(c, wc)
    ensures r.Failure? ==> r.error.MissingKey? && r.error.key !in probs.pDiv
    ensures r.Success? ==>
      && |r.value| == 2
      && DivisionalPairings(c, [wc[0].winner, wc[1].winner, wc[2].winner])
           == Success([(r.value[0].a, r.value[0].b), (r.value[1].a, r.value[1].b)])
      && r.value[0].Decided() && Decides(r.value[0], probs.pDiv, draws[0])
      && r.value[1].Decided() && Decides(r.value[1], probs.pDiv, draws[1])
  {
    DivisionalTeams(c, wc);
    var pairs := DivisionalPairings(c, [wc[0].winner, wc[1].winner, wc[2].winner]).value;
    var round := PlayRound(pairs, probs.pDiv, draws);
    assert round.Success? ==> pairs == [(round.value[0].a, round.value[0].b), (round.value[1].a, round.value[1].b)];
    round
  }

  /** The divisional round fails only on a conference team missing from the
      divisional table, and cannot fail when the table has every team. */
  lemma DivisionalRoundFails(c: Conf, probs: RoundWinProbs, wc: seq<Game>, draws: seq<real>)
    requires |draws| == 2 && WildCardsOf(c, wc)
    ensures Covers(probs, TeamsOf(c)) ==> DivisionalRound(c, probs, wc, draws).Success?
    ensures var r := DivisionalRound(c, probs, wc, draws);
      r.Failure? ==> r.error.MissingKey? && r.error.key in TeamsOf(c)
    ensures var pr := DivisionalPairings(c, [wc[0].winner, wc[1].winner, wc[2].winner]);
      var r := DivisionalRound(c, probs, wc, draws);
      && pr.Success? && |pr.value| == 2 && pr.value[0].0 == Bye(c)
      && (r.Success? <==> Bye(c) in probs.pDiv && pr.value[1].0 in probs.pDiv)
      && (r.Failure? ==> r.error == MissingKey(if Bye(c) !in probs.pDiv then Bye(c) else pr.value[1].0))
  {
    DivisionalTeams(c, wc);
    var pairs := DivisionalPairings(c, [wc[0].winner, wc[1].winner, wc[2].winner]).value;
    assert DivisionalRound(c, probs, wc, draws) == PlayRound(pairs, probs.pDiv, draws);
    forall i | 0 <= i < |pairs|
      ensures pairs[i].0 in TeamsOf(c)
    {
      assert i == 0 || i == 1;
    }
    PlayRoundWithin(pairs, probs.pDiv, draws, TeamsOf(c));
  }

  /** Both divisional games are between teams of the conference. */
  lemma DivisionalRoundTeams(c: Conf, probs: RoundWinProbs, wc: seq<Game>, draws: seq<real>)
    requires |draws| == 2 && WildCardsOf(c, wc)
    requires DivisionalRound(c, probs, wc, draws).Success?
    ensures var div := DivisionalRound(c, probs, wc, draws).value;
      && div[0].a in TeamsOf(c) && div[0].b in TeamsOf(c)
      && div[1].a in TeamsOf(c) && div[1].b in TeamsOf(c)
  {
    DivisionalTeams(c, wc);
  }

  /** The divisional round and the conference championship that follow the
      wild-card games `wc`. */
  function LaterRounds(c: Conf, probs: RoundWinProbs, wc: seq<Game>, draws: seq<real>): (r: Result<Playoff, Error>)
    requires |draws| == 3 && WildCardsOf(c, wc)
    ensures Covers(probs, TeamsOf(c)) ==> r.Success?
    ensures r.Failure? ==> r.error.MissingKey? && r.error.key in TeamsOf(c)
    ensures r.Failure? ==> r.error.key !in probs.pDiv || r.error.key !in probs.pCc
    ensures r.Success? ==> r.value.wc1 == wc[0] && r.value.wc2 == wc[1] && r.value.wc3 == wc[2]
    ensures r.Success? ==> Follows(c, r.value)
    ensures r.Success? ==>
      Decides(r.value.div1, probs.pDiv, draws[0]) && Decides(r.value.div2, probs.pDiv, draws[1])
      && Decides(r.value.title, probs.pCc, draws[2])
  {
    DivisionalRoundFails(c, probs, wc, draws[..2]);
    var div :- DivisionalRound(c, probs, wc, draws[..2]);
    DivisionalRoundTeams(c, probs, wc, draws[..2]);
    assert div[0].winner in TeamsOf(c) && div[1].winner in TeamsOf(c);
    var title :- PlayGame(div[0].winner, div[1].winner, probs.pCc, draws[2]);
    Success(Playoff(wc[0], wc[1], wc[2], div[0], div[1], title))
  }

  /** The games of one playout, or the missing-key error of the first lookup
      that fails. */
  function PlayConference(c: Conf, probs: RoundWinProbs, draws: seq<real>): (r: Result<Playoff, Error>)
    requires |draws| == 6
    ensures Covers(probs, TeamsOf(c)) ==> r.Success?
    ensures r.Failure? ==> r.error.MissingKey? && r.error.key in TeamsOf(c)
    ensures r.Failure? ==> r.error.key !in probs.pWc || r.error.key !in probs.pDiv || r.error.key !in probs.pCc
    ensures r.Success? ==> Follows(c, r.value) && DecidedBy(r.value, probs, draws)
  {
    var wc :- WildCardRound(c, probs, draws[..3]);
    LaterRounds(c, probs, wc, draws[3..])
  }

  /** A round whose games are already decided by the draws is replayed exactly. */
  lemma PlayRoundDecided(pairs: seq<(string, string)>, table: map<string, Option<real>>, draws: seq<real>, games: seq<Game>)
    requires |draws| == |pairs| == |games|
    requires forall i :: 0 <= i < |pairs| ==>
      games[i].a == pairs[i].0 && games[i].b == pairs[i].1 && Decides(games[i], table, draws[i])
    ensures PlayRound(pairs, table, draws) == Success(games)
  {
    var r := PlayRound(pairs, table, draws);
    assert r.Success?;
    forall i | 0 <= i < |pairs|
      ensures r.value[i] == games[i]
    {
      assert r.value[i].a == games[i].a && r.value[i].b == games[i].b;
      assert r.value[i].winner == Play(games[i].a, games[i].b, table[games[i].a], draws[i]) == games[i].winner;
    }
    assert r.value == games;
  }

  /** Divisional games paired by the reseeding rule and decided by the draws
      are exactly the divisional round. */
  lemma DivisionalRoundUnique(c: Conf, probs: RoundWinProbs, wc: seq<Game>, draws: seq<real>, g1: Game, g2: Game)
    requires |draws| == 2 && WildCardsOf(c, wc)
    requires DivisionalPairings(c, [wc[0].winner, wc[1].winner, wc[2].winner]) == Success([(g1.a, g1.b), (g2.a, g2.b)])
    requires Decides(g1, probs.pDiv, draws[0]) && Decides(g2, probs.pDiv, draws[1])
    ensures DivisionalRound(c, probs, wc, draws) == Success([g1, g2])
  {
    DivisionalRoundFails(c, probs, wc, draws);
    var r := DivisionalRound(c, probs, wc, draws);
    assert [(g1.a, g1.b), (g2.a, g2.b)][1].0 == g2.a;
    SameGames(r.value, g1, g2, probs.pDiv, draws);
  }

  /** Two games decided by the same draws between the same pairs are the same
      games. */
  lemma SameGames(r: seq<Game>, g1: Game, g2: Game, table: map<string, Option<real>>, draws: seq<real>)
    requires |r| == 2 && |draws| == 2
    requires [(r[0].a, r[0].b), (r[1].a, r[1].b)] == [(g1.a, g1.b), (g2.a, g2.b)]
    requires Decides(r[0], table, draws[0]) && Decides(r[1], table, draws[1])
    requires Decides(g1, table, draws[0]) && Decides(g2, table, draws[1])
    ensures r == [g1, g2]
  {
    var got, want := [(r[0].a, r[0].b), (r[1].a, r[1].b)], [(g1.a, g1.b), (g2.a, g2.b)];
    assert got[0] == want[0] && got[1] == want[1];
  }

  /** The wild-card games of a playout that follows the bracket. */
  lemma FollowsWildCards(c: Conf, p: Playoff)
    requires Follows(c, p)
    ensures WildCardsOf(c, [p.wc1, p.wc2, p.wc3])
  {
    var wc := [p.wc1, p.wc2, p.wc3];
    var m := WcMatchups(c);
    assert p.wc1.a == m[0].0 && p.wc1.b == m[0].1 && p.wc1.Decided();
    assert p.wc2.a == m[1].0 && p.wc2.b == m[1].1 && p.wc2.Decided();
    assert p.wc3.a == m[2].0 && p.wc3.b == m[2].1 && p.wc3.Decided();
    forall i | 0 <= i < 3
      ensures wc[i].a == m[i].0 && wc[i].b == m[i].1 && wc[i].Decided()
    {
      if i == 0 {
        assert wc[i] == p.wc1;
      } else if i == 1 {
        assert wc[i] == p.wc2;
      } else {
        assert wc[i] == p.wc3;
      }
    }
  }

  /** The later rounds of a playout that follows the bracket and is decided
      by the draws are exactly that playout's games. */
  lemma LaterRoundsUnique(c: Conf, probs: RoundWinProbs, draws: seq<real>, p: Playoff)
    requires |draws| == 3 && Follows(c, p)
    requires Decides(p.div1, probs.pDiv, draws[0]) && Decides(p.div2, probs.pDiv, draws[1])
    requires Decides(p.title, probs.pCc, draws[2])
    ensures WildCardsOf(c, [p.wc1, p.wc2, p.wc3])
    ensures LaterRounds(c, probs, [p.wc1, p.wc2, p.wc3], draws) == Success(p)
  {
    var wc := [p.wc1, p.wc2, p.wc3];
    FollowsWildCards(c, p);
    assert [wc[0].winner, wc[1].winner, wc[2].winner] == [p.wc1.winner, p.wc2.winner, p.wc3.winner];
    DivisionalRoundUnique(c, probs, wc, draws[..2], p.div1, p.div2);
    assert PlayGame(p.div1.winner, p.div2.winner, probs.pCc, draws[2]) == Success(p.title);
  }

  /** The wild-card games of a playout that follows the bracket and is
      decided by the draws are exactly the wild-card round. */
  lemma WildCardRoundUnique(c: Conf, probs: RoundWinProbs, draws: seq<real>, p: Playoff)
    requires |draws| == 3 && Follows(c, p)
    requires Decides(p.wc1, probs.pWc, draws[0]) && Decides(p.wc2, probs.pWc, draws[1])
    requires Decides(p.wc3, probs.pWc, draws[2])
    ensures WildCardRound(c, probs, draws) == Success([p.wc1, p.wc2, p.wc3])
  {
    var wc := [p.wc1, p.wc2, p.wc3];
    FollowsWildCards(c, p);
    forall i | 0 <= i < 3
      ensures Decides(wc[i], probs.pWc, draws[i])
    {
      if i == 0 {
        assert wc[i] == p.wc1;
      } else if i == 1 {
        assert wc[i] == p.wc2;
      } else {
        assert wc[i] == p.wc3;
      }
    }
    PlayRoundDecided(WcMatchups(c), probs.pWc, draws, wc);
  }

  /** A playout that follows the bracket and is decided by the draws is the
      one `PlayConference` produces: the playout is determined by the draws. */
  lemma PlayConferenceUnique(c: Conf, probs: RoundWinProbs, draws: seq<real>, p: Playoff)
    requires |draws| == 6 && Follows(c, p) && DecidedBy(p, probs, draws)
    ensures PlayConference(c, probs, draws) == Success(p)
  {
    WildCardRoundUnique(c, probs, draws[..3], p);
    LaterRoundsUnique(c, probs, draws[3..], p);
  }

  /** A playout succeeds exactly when some playout of the bracket is decided
      by the draws: every lookup it fails on is one a played game needs. */
  lemma PlayConferenceExact(c: Conf, probs: RoundWinProbs, draws: seq<real>)
    requires |draws| == 6
    ensures PlayConference(c, probs, draws).Success? <==> exists p :: Follows(c, p) && DecidedBy(p, probs, draws)
  {
    if p :| Follows(c, p) && DecidedBy(p, probs, draws) {
      PlayConferenceUnique(c, probs, draws, p);
    }
  }

  /** The most games a team can play in one playout: two for the bye team,
      three for the others. */
  function MostGames(c: Conf, t: string): int {
    if t == Bye(c) then 2 else 3
  }

  /** The divisional round of one playout: the bye team hosts, and the
      three wild-card winners fill the other three places. */
  lemma DivisionalShape(c: Conf, p: Playoff)
    requires Follows(c, p)
    ensures p.div1.a == Bye(c)
    ensures p.div1.b in {p.wc1.winner, p.wc2.winner, p.wc3.winner}
    ensures p.div2.a in {p.wc1.winner, p.wc2.winner, p.wc3.winner}
    ensures p.div2.b in {p.wc1.winner, p.wc2.winner, p.wc3.winner}
    ensures p.div1.b != p.div2.a && p.div1.b != p.div2.b && p.div2.a != p.div2.b
    ensures p.wc1.winner in {p.div1.b, p.div2.a, p.div2.b}
    ensures p.wc2.winner in {p.div1.b, p.div2.a, p.div2.b}
    ensures p.wc3.winner in {p.div1.b, p.div2.a, p.div2.b}
  {
    var s := Slots(c);
    var winners := [p.wc1.winner, p.wc2.winner, p.wc3.winner];
    assert p.wc1.Decided() && p.wc2.Decided() && p.wc3.Decided();
    WinnersDistinct(s, p.wc1.winner, p.wc2.winner, p.wc3.winner);
    var r := DivisionalPairings(c, winners);
    assert r.value[1] == (p.div2.a, p.div2.b);
  }

  /** The bracket's shape in one playout: who plays whom in every round. */
  lemma Rounds(c: Conf, p: Playoff)
    requires Follows(c, p)
    ensures var s := Slots(c);
      && Distinct(s) && s[0] == Bye(c)
      && p.wc1.a == s[1] && p.wc1.b == s[2] && p.wc2.a == s[3] && p.wc2.b == s[4]
      && p.wc3.a == s[5] && p.wc3.b == s[6]
      && p.div1.a == Bye(c)
      && p.div1.b in {p.wc1.winner, p.wc2.winner, p.wc3.winner}
      && p.div2.a in {p.wc1.winner, p.wc2.winner, p.wc3.winner}
      && p.div2.b in {p.wc1.winner, p.wc2.winner, p.wc3.winner}
      && p.div1.b != p.div2.a && p.div1.b != p.div2.b && p.div2.a != p.div2.b
      && p.wc1.winner in {p.div1.b, p.div2.a, p.div2.b}
      && p.wc2.winner in {p.div1.b, p.div2.a, p.div2.b}
      && p.wc3.winner in {p.div1.b, p.div2.a, p.div2.b}
  {
    DivisionalShape(c, p);
  }

  /** The shape of a playout over seven distinct teams `b` (the bye team) and
      `x[0..6]` (the wild-card teams, paired 0-1, 2-3, 4-5), stated without
      reference to any particular conference. */
  ghost predicate Shaped(b: string, x: seq<string>, p: Playoff) {
    && |x| == 6
    && b !in x && Distinct(x)
    && p.wc1.a == x[0] && p.wc1.b == x[1] && p.wc2.a == x[2] && p.wc2.b == x[3]
    && p.wc3.a == x[4] && p.wc3.b == x[5]
    && p.div1.a == b
    && p.div1.b in {p.wc1.winner, p.wc2.winner, p.wc3.winner}
    && p.div2.a in {p.wc1.winner, p.wc2.winner, p.wc3.winner}
    && p.div2.b in {p.wc1.winner, p.wc2.winner, p.wc3.winner}
    && p.div1.b != p.div2.a && p.div1.b != p.div2.b && p.div2.a != p.div2.b
    && p.wc1.winner in {p.div1.b, p.div2.a, p.div2.b}
    && p.wc2.winner in {p.div1.b, p.div2.a, p.div2.b}
    && p.wc3.winner in {p.div1.b, p.div2.a, p.div2.b}
    && p.title.a == p.div1.winner && p.title.b == p.div2.winner
    && p.wc1.Decided() && p.wc2.Decided() && p.wc3.Decided()
    && p.div1.Decided() && p.div2.Decided() && p.title.Decided()
  }

  /** The wild-card round: each of the six wild-card teams plays once and loses
      unless it won. */
  lemma ShapedWildCards(b: string, x: seq<string>, p: Playoff, t: string)
    requires Shaped(b, x, p)
    ensures var w := {p.wc1.winner, p.wc2.winner, p.wc3.winner};
      && (forall v :: v in w ==> v in x)
      && p.wc1.Appearances(t) + p.wc2.Appearances(t) + p.wc3.Appearances(t) == (if t in x then 1 else 0)
      && p.wc1.Lost(t) + p.wc2.Lost(t) + p.wc3.Lost(t) == (if t in x && t !in w then 1 else 0)
  {
    assert x[0] != x[1] && x[0] != x[2] && x[0] != x[3] && x[0] != x[4] && x[0] != x[5];
    assert x[1] != x[2] && x[1] != x[3] && x[1] != x[4] && x[1] != x[5];
    assert x[2] != x[3] && x[2] != x[4] && x[2] != x[5];
    assert x[3] != x[4] && x[3] != x[5] && x[4] != x[5];
    assert t in x <==> t == x[0] || t == x[1] || t == x[2] || t == x[3] || t == x[4] || t == x[5];
  }

  /** The divisional round: the bye team and the three wild-card winners play
      once each, and the two who do not win lose. */
  lemma ShapedDivisional(b: string, x: seq<string>, p: Playoff, t: string)
    requires Shaped(b, x, p)
    ensures var d := t == b || t in {p.wc1.winner, p.wc2.winner, p.wc3.winner};
      && p.div1.Appearances(t) + p.div2.Appearances(t) == (if d then 1 else 0)
      && p.div1.Lost(t) + p.div2.Lost(t) == (if d && t != p.div1.winner && t != p.div2.winner then 1 else 0)
      && p.div1.winner != p.div2.winner
  {
    ShapedWildCards(b, x, p, t);
    assert b !in {p.wc1.winner, p.wc2.winner, p.wc3.winner};
  }

  lemma ShapedCounts(b: string, x: seq<string>, p: Playoff, t: string)
    requires Shaped(b, x, p)
    requires t == b || t in x
    ensures 1 <= p.Appearances(t) <= (if t == b then 2 else 3)
    ensures t == p.Champion() ==> p.Appearances(t) == (if t == b then 2 else 3)
    ensures p.Losses(t) == if t == p.Champion() then 0 else 1
  {
    ShapedWildCards(b, x, p, t);
    ShapedDivisional(b, x, p, t);
    ShapedWildCards(b, x, p, p.div1.winner);
    ShapedWildCards(b, x, p, p.div2.winner);
  }

  lemma ShapedChampion(b: string, x: seq<string>, p: Playoff)
    requires Shaped(b, x, p)
    ensures p.Champion() == b || p.Champion() in x
    ensures forall t :: p.Appearances(t) > 0 ==> t == b || t in x
  {
  }

  /** Seven distinct slots split into the first and six distinct others. */
  lemma SlotsSplit(s: seq<string>)
    requires |s| == 7 && Distinct(s)
    ensures Distinct(s[1..]) && s[0] !in s[1..]
    ensures forall t :: t in s <==> t == s[0] || t in s[1..]
  {
    assert forall t :: t in s <==> t == s[0] || t in s[1..];
    assert Distinct(s[1..]) by {
      forall i, j | 0 <= i < j < 6
        ensures s[1..][i] != s[1..][j]
      {
        assert s[1..][i] == s[i + 1] && s[1..][j] == s[j + 1];
      }
    }
    assert s[0] !in s[1..] by {
      forall i | 0 <= i < 6
        ensures s[1..][i] != s[0]
      {
        assert s[1..][i] == s[i + 1];
      }
    }
  }

  /** A playout of conference `c` has the shape of its bracket. */
  lemma FollowsShaped(c: Conf, p: Playoff)
    requires Follows(c, p)
    ensures Shaped(Bye(c), Slots(c)[1..], p)
    ensures forall t :: t in TeamsOf(c) <==> t == Bye(c) || t in Slots(c)[1..]
  {
    Rounds(c, p);
    var s := Slots(c);
    SlotsSplit(s);
    assert s[1..][0] == s[1] && s[1..][1] == s[2] && s[1..][2] == s[3];
    assert s[1..][3] == s[4] && s[1..][4] == s[5] && s[1..][5] == s[6];
  }

  /** One playout, team by team: every team plays at least once, the bye team
      at most twice and the others at most three times; the champion plays every
      round open to it; every game is between two conference teams. */
  lemma GamesPerTeam(c: Conf, p: Playoff)
    requires Follows(c, p)
    ensures p.Champion() in TeamsOf(c)
    ensures forall t :: p.Appearances(t) > 0 ==> t in TeamsOf(c)
    ensures forall t :: t in TeamsOf(c) ==> 1 <= p.Appearances(t) <= MostGames(c, t)
    ensures p.Appearances(p.Champion()) == MostGames(c, p.Champion())
  {
    FollowsShaped(c, p);
    var b, x := Bye(c), Slots(c)[1..];
    ShapedChampion(b, x, p);
    forall t | t in TeamsOf(c)
      ensures 1 <= p.Appearances(t) <= MostGames(c, t)
    {
      ShapedCounts(b, x, p, t);
    }
    ShapedCounts(b, x, p, p.Champion());
  }

  /** One playout eliminates every team but the champion exactly once, and the
      champion never loses. */
  lemma EliminatedOnce(c: Conf, p: Playoff)
    requires Follows(c, p)
    ensures forall t :: t in TeamsOf(c) ==> p.Losses(t) == if t == p.Champion() then 0 else 1
  {
    FollowsShaped(c, p);
    forall t | t in TeamsOf(c)
      ensures p.Losses(t) == if t == p.Champion() then 0 else 1
    {
      ShapedCounts(Bye(c), Slots(c)[1..], p, t);
    }
  }

  function Zeros(ts: set<string>): (z: map<string, int>)
    ensures z.Keys == ts
    ensures forall t :: t in ts ==> z[t] == 0
  {
    map t | t in ts :: 0
  }

  /** Both teams of every game of `p` belong to `ts`. */
  predicate PlaysIn(p: Playoff, ts: set<string>) {
    && p.wc1.a in ts && p.wc1.b in ts && p.wc2.a in ts && p.wc2.b in ts
    && p.wc3.a in ts && p.wc3.b in ts && p.div1.a in ts && p.div1.b in ts
    && p.div2.a in ts && p.div2.b in ts && p.title.a in ts && p.title.b in ts
  }

  /** The teams that play in `p` are those that appear in one of its games. */
  lemma Players(p: Playoff, ts: set<string>)
    requires forall t :: p.Appearances(t) > 0 ==> t in ts
    ensures PlaysIn(p, ts)
  {
    assert p.Appearances(p.wc1.a) > 0 && p.Appearances(p.wc1.b) > 0;
    assert p.Appearances(p.wc2.a) > 0 && p.Appearances(p.wc2.b) > 0;
    assert p.Appearances(p.wc3.a) > 0 && p.Appearances(p.wc3.b) > 0;
    assert p.Appearances(p.div1.a) > 0 && p.Appearances(p.div1.b) > 0;
    assert p.Appearances(p.div2.a) > 0 && p.Appearances(p.div2.b) > 0;
    assert p.Appearances(p.title.a) > 0 && p.Appearances(p.title.b) > 0;
  }

  /** Adds one game played for each of `g`'s two teams. */
  function RecordGame(gp: map<string, int>, g: Game): (r: map<string, int>)
    requires g.a in gp && g.b in gp
    ensures r.Keys == gp.Keys
    ensures forall t :: t in gp ==> r[t] == gp[t] + g.Appearances(t)
  {
    var once := gp[g.a := gp[g.a] + 1];
    once[g.b := once[g.b] + 1]
  }

  /** Recording a game adds two to the total over a key list that lists every
      team once. */
  lemma RecordGameSum(ks: seq<string>, gp: map<string, int>, g: Game)
    requires Distinct(ks)
    requires forall k :: k in ks ==> k in gp
    requires g.a in ks && g.b in ks
    ensures Sum(ks, RecordGame(gp, g)) == Sum(ks, gp) + 2
  {
    var once := gp[g.a := gp[g.a] + 1];
    SumAdd(ks, gp, g.a, 1);
    SumAdd(ks, once, g.b, 1);
  }

  /** The games played by each team of `ts` in playout `p`, recorded game by
      game in playing order. */
  function GamesPlayed(ts: set<string>, p: Playoff): (gp: map<string, int>)
    requires PlaysIn(p, ts)
    ensures gp.Keys == ts
    ensures forall t :: t in ts ==> gp[t] == p.Appearances(t)
  {
    var g0 := Zeros(ts);
    var g1 := RecordGame(g0, p.wc1);
    var g2 := RecordGame(g1, p.wc2);
    var g3 := RecordGame(g2, p.wc3);
    var g4 := RecordGame(g3, p.div1);
    var g5 := RecordGame(g4, p.div2);
    RecordGame(g5, p.title)
  }

  /** Six games, two teams each: twelve games played in all, over any list
      that names every team once. */
  lemma GamesPlayedTotal(ks: seq<string>, ts: set<string>, p: Playoff)
    requires Distinct(ks) && (forall k :: k in ks <==> k in ts)
    requires PlaysIn(p, ts)
    ensures Sum(ks, GamesPlayed(ts, p)) == 12
  {
    var g0 := Zeros(ts);
    var g1 := RecordGame(g0, p.wc1);
    var g2 := RecordGame(g1, p.wc2);
    var g3 := RecordGame(g2, p.wc3);
    var g4 := RecordGame(g3, p.div1);
    var g5 := RecordGame(g4, p.div2);
    SumZero(ks, g0);
    RecordGameSum(ks, g0, p.wc1);
    RecordGameSum(ks, g1, p.wc2);
    RecordGameSum(ks, g2, p.wc3);
    RecordGameSum(ks, g3, p.div1);
    RecordGameSum(ks, g4, p.div2);
    RecordGameSum(ks, g5, p.title);
  }

  /** A conference playout plays twelve team-games, counted over the
      conference's seven slots. */
  lemma GamesPlayedSum(c: Conf, p: Playoff)
    requires PlaysIn(p, TeamsOf(c))
    ensures Sum(Slots(c), GamesPlayed(TeamsOf(c), p)) == 12
  {
    GamesPlayedTotal(Slots(c), TeamsOf(c), p);
  }

  /** What one playout yields: a champion of the conference, every team with
      between one game and the most its bracket position allows, and the
      champion with exactly that most. */
  ghost predicate ValidTrial(c: Conf, tr: Trial) {
    && tr.champion in TeamsOf(c)
    && tr.gamesPlayed.Keys == TeamsOf(c)
    && (forall t :: t in TeamsOf(c) ==> 1 <= tr.gamesPlayed[t] <= MostGames(c, t))
    && tr.gamesPlayed[tr.champion] == MostGames(c, tr.champion)
  }

  /** One playout of conference `c`: the champion and the games each team
      played, which total twelve (six games, two teams each). */
  function SimulateOnce(c: Conf, probs: RoundWinProbs, draws: seq<real>): (r: Result<Trial, Error>)
    requires |draws| == 6
    ensures Covers(probs, TeamsOf(c)) ==> r.Success?
    ensures r.Failure? ==> r.error.MissingKey? && r.error.key in TeamsOf(c)
    ensures r.Success? <==> PlayConference(c, probs, draws).Success?
    ensures r.Failure? ==> r.error == PlayConference(c, probs, draws).error
    ensures r.Success? ==> ValidTrial(c, r.value) && Sum(Slots(c), r.value.gamesPlayed) == 12
    ensures r.Success? ==>
      && PlayConference(c, probs, draws).Success?
      && r.value.champion == PlayConference(c, probs, draws).value.Champion()
      && forall t :: t in TeamsOf(c) ==>
           r.value.gamesPlayed[t] == PlayConference(c, probs, draws).value.Appearances(t)
  {
    var p :- PlayConference(c, probs, draws);
    GamesPerTeam(c, p);
    Players(p, TeamsOf(c));
    GamesPlayedSum(c, p);
    Success(Trial(p.Champion(), GamesPlayed(TeamsOf(c), p)))
  }
}

=== FILE: round_probs.dfy ===
/** Conversion of cumulative "chance to reach round N" values into per-round
    win probabilities, each conditional on having reached that round. */
module RoundProbs {
  import opened Wrappers
  import opened Odds

  /** Per-team win probabilities for the wild-card, divisional and conference
      championship rounds; `None` stands for an undefined (NaN) value. */
  datatype RoundWinProbs = RoundWinProbs(
    pWc: map<string, Option<real>>,
    pDiv: map<string, Option<real>>,
    pCc: map<string, Option<real>>)

  /** `num / den`, undefined when the numerator is. */
  function Ratio(num: Option<real>, den: real): (r: Option<real>)
    requires den > 0.0
    ensures r.Some? <==> num.Some?
    ensures r.Some? ==> den * r.value == num.value
  {
    match num
    case Some(n) => Some(n / den)
    case None => None
  }

  /** Wild-card win probability: the chance to reach the divisional round;
      undefined for the bye team. */
  function WcWinProb(row: OddsRow): (p: Option<real>)
    ensures row.hasWc ==> p == row.reachDiv
    ensures !row.hasWc ==> p.None?
  {
    if row.hasWc then row.reachDiv else None
  }

  /** Divisional win probability given the team plays a divisional game. */
  function DivWinProb(row: OddsRow): (p: Option<real>)
    ensures row.hasWc && !Positive(row.reachDiv) ==> p == Some(0.0)
    ensures row.hasWc && Positive(row.reachDiv) ==>
      (p.Some? <==> row.reachConf.Some?) &&
      (p.Some? ==> row.reachDiv.value * p.value == row.reachConf.value)
    ensures !row.hasWc ==> p == row.reachConf
  {
    if row.hasWc then
      if Positive(row.reachDiv) then Ratio(row.reachConf, row.reachDiv.value) else Some(0.0)
    else row.reachConf
  }

  /** Conference championship win probability given the team plays that game. */
  function CcWinProb(row: OddsRow): (p: Option<real>)
    ensures !Positive(row.reachConf) ==> p == Some(0.0)
    ensures Positive(row.reachConf) ==>
      (p.Some? <==> row.reachSb.Some?) &&
      (p.Some? ==> row.reachConf.value * p.value == row.reachSb.value)
  {
    if Positive(row.reachConf) then Ratio(row.reachSb, row.reachConf.value) else Some(0.0)
  }

  /** Multiplying the conditional probabilities along a team's path gives back
      its cumulative chance of reaching the Super Bowl. */
  lemma ChainRule(row: OddsRow)
    requires row.reachSb.Some? && Positive(row.reachConf)
    requires row.hasWc ==> Positive(row.reachDiv)
    ensures row.hasWc ==>
      WcWinProb(row).value * DivWinProb(row).value * CcWinProb(row).value == row.reachSb.value
    ensures !row.hasWc ==> DivWinProb(row).value * CcWinProb(row).value == row.reachSb.value
  {
    var c, s := row.reachConf.value, row.reachSb.value;
    var cc := CcWinProb(row).value;
    assert c * cc == s;
    if row.hasWc {
      var d, dv := row.reachDiv.value, DivWinProb(row).value;
      assert d * dv == c;
      calc {
        d * dv * cc;
        (d * dv) * cc;
        c * cc;
      }
    }
  }

  /** Cumulative chances that are present, lie in [0, 1] and never grow from one
      round to the next yield win probabilities in [0, 1]. */
  lemma UnitInterval(row: OddsRow)
    requires row.reachConf.Some? && row.reachSb.Some?
    requires 0.0 <= row.reachSb.value <= row.reachConf.value <= 1.0
    requires row.hasWc ==> row.reachDiv.Some? && row.reachConf.value <= row.reachDiv.value <= 1.0
    ensures row.hasWc ==> 0.0 <= WcWinProb(row).value <= 1.0
    ensures 0.0 <= DivWinProb(row).value <= 1.0
    ensures 0.0 <= CcWinProb(row).value <= 1.0
  {
    var c, s := row.reachConf.value, row.reachSb.value;
    if c > 0.0 {
      var cc := CcWinProb(row).value;
      assert c * cc == s;
      UnitRatio(s, c, cc);
    }
    if row.hasWc && row.reachDiv.value > 0.0 {
      var d, dv := row.reachDiv.value, DivWinProb(row).value;
      assert d * dv == c;
      UnitRatio(c, d, dv);
    }
  }

  lemma UnitRatio(num: real, den: real, q: real)
    requires 0.0 <= num <= den && den > 0.0 && den * q == num
    ensures 0.0 <= q <= 1.0
  {
    assert q == num / den;
  }

  /** Teams named in the table. */
  function TableTeams(rows: seq<OddsRow>): set<string> {
    set i | 0 <= i < |rows| :: rows[i].team
  }

  /** Row `i` is the last row for its team: building a dictionary from the table
      keeps the last row of each team. */
  predicate IsLastRow(rows: seq<OddsRow>, i: nat)
    requires i < |rows|
  {
    forall j :: i < j < |rows| ==> rows[j].team != rows[i].team
  }

  function LastRowIndex(rows: seq<OddsRow>, team: string): (i: nat)
    requires team in TableTeams(rows)
    ensures i < |rows| && rows[i].team == team && IsLastRow(rows, i)
  {
    if rows[|rows| - 1].team == team then |rows| - 1
    else
      assert team in TableTeams(rows[..|rows| - 1]) by {
        var k :| 0 <= k < |rows| && rows[k].team == team;
        assert rows[..|rows| - 1][k].team == team;
      }
      var i := LastRowIndex(rows[..|rows| - 1], team);
      assert rows[..|rows| - 1][i] == rows[i];
      assert forall j :: i < j < |rows| - 1 ==> rows[..|rows| - 1][j] == rows[j];
      i
  }

  /** The round win probabilities of every team named in the table, each taken
      from that team's last row. */
  function BuildRoundProbs(rows: seq<OddsRow>): (probs: RoundWinProbs)
    ensures probs.pWc.Keys == TableTeams(rows)
    ensures probs.pDiv.Keys == TableTeams(rows)
    ensures probs.pCc.Keys == TableTeams(rows)
    ensures forall i :: 0 <= i < |rows| && IsLastRow(rows, i) ==>
      && probs.pWc[rows[i].team] == WcWinProb(rows[i])
      && probs.pDiv[rows[i].team] == DivWinProb(rows[i])
      && probs.pCc[rows[i].team] == CcWinProb(rows[i])
  {
    var teams := TableTeams(rows);
    var probs := RoundWinProbs(
      map t | t in teams :: WcWinProb(rows[LastRowIndex(rows, t)]),
      map t | t in teams :: DivWinProb(rows[LastRowIndex(rows, t)]),
      map t | t in teams :: CcWinProb(rows[LastRowIndex(rows, t)]));
    assert forall i :: 0 <= i < |rows| && IsLastRow(rows, i) ==> LastRowIndex(rows, rows[i].team) == i by {
      forall i | 0 <= i < |rows| && IsLastRow(rows, i)
        ensures LastRowIndex(rows, rows[i].team) == i
      {
        var k := LastRowIndex(rows, rows[i].team);
      }
    }
    probs
  }
}

=== FILE: scoring.dfy ===
/** Expected games and fantasy-point formulas for one player: expected
    playoff games from the win-odds row, expected points, the ceiling if the
    team reaches the Super Bowl, and the ceiling over a given number of
    games. */
module Scoring {
  import opened Wrappers
  import opened Odds

  /** A player's projected points for the wild-card game and per game in
      each later round, as a mean and as a ceiling. */
  datatype PlayerRow = PlayerRow(
    wcMean: real,
    laterMean: real,
    wcCeiling: real,
    laterCeiling: real)

  /** Sum of values that may be undefined; undefined if any is. */
  function Plus(a: Option<real>, b: Option<real>): (r: Option<real>)
    ensures r.Some? <==> a.Some? && b.Some?
    ensures r.Some? ==> r.value - a.value == b.value
  {
    if a.Some? && b.Some? then Some(a.value + b.value) else None
  }

  /** Python's `min(cap, x)`: a comparison with an undefined `x` is false, so
      the cap is kept. */
  function CapAt(cap: real, x: Option<real>): (r: real)
    ensures r <= cap
    ensures x.Some? && x.value <= cap ==> r == x.value
    ensures x.None? || x.value >= cap ==> r == cap
  {
    if x.Some? && x.value < cap then x.value else cap
  }

  /** The uncapped expected games: one game plus the chance of reaching each
      later round the team can still reach. */
  function ExpectedGames(row: OddsRow): (g: Option<real>)
    ensures g.Some? <==> row.reachConf.Some? && row.reachSb.Some? && (row.hasWc ==> row.reachDiv.Some?)
  {
    var later := Plus(row.reachConf, row.reachSb);
    if row.hasWc then Plus(Plus(Some(1.0), row.reachDiv), later)
    else Plus(Some(1.0), later)
  }

  /** Expected games, capped at four with a wild-card game and at three
      without. */
  function Xgp(row: OddsRow): (x: real)
    ensures x <= MaxGames(row.hasWc)
  {
    CapAt(MaxGames(row.hasWc), ExpectedGames(row))
  }

  /** Expected points: the wild-card mean once plus the later-round mean for
      each further expected game; without a wild-card game, the later-round
      mean for every expected game. */
  function Tefp(p: PlayerRow, row: OddsRow): (t: real)
    ensures p.laterMean >= 0.0 ==> t <= PointsOver(row.hasWc, p.wcMean, p.laterMean, MaxGames(row.hasWc))
  {
    assert p.laterMean >= 0.0 ==>
      PointsOver(row.hasWc, p.wcMean, p.laterMean, Xgp(row)) <= PointsOver(row.hasWc, p.wcMean, p.laterMean, MaxGames(row.hasWc))
    by {
      if p.laterMean >= 0.0 {
        PointsOverMonotone(row.hasWc, p.wcMean, p.laterMean, Xgp(row), MaxGames(row.hasWc));
      }
    }
    if row.hasWc then p.wcMean + (Xgp(row) - 1.0) * p.laterMean
    else Xgp(row) * p.laterMean
  }

  /** Points over `games` games: the first is the wild-card game when there
      is one. */
  function PointsOver(hasWc: bool, wcPts: real, laterPts: real, games: real): real {
    if hasWc then wcPts + (games - 1.0) * laterPts else games * laterPts
  }

  /** The ceiling if the team plays every game up to the Super Bowl: the
      ceiling over an undefined effective game count, or over the most games
      the team can play. */
  function CeilingIfSb(p: PlayerRow, row: OddsRow): (c: real)
    ensures c == CeilingWithEffGames(p, row, None)
    ensures c == CeilingWithEffGames(p, row, Some(MaxGames(row.hasWc)))
  {
    PointsOver(row.hasWc, p.wcCeiling, p.laterCeiling, MaxGames(row.hasWc))
  }

  /** The ceiling over `eff` games; an undefined `eff` falls back to the
      most games the team can play. */
  function CeilingWithEffGames(p: PlayerRow, row: OddsRow, eff: Option<real>): (c: real)
    ensures p.laterCeiling >= 0.0 && (eff.Some? ==> eff.value <= MaxGames(row.hasWc)) ==>
      c <= PointsOver(row.hasWc, p.wcCeiling, p.laterCeiling, MaxGames(row.hasWc))
  {
    assert p.laterCeiling >= 0.0 && eff.GetOr(MaxGames(row.hasWc)) <= MaxGames(row.hasWc) ==>
      PointsOver(row.hasWc, p.wcCeiling, p.laterCeiling, eff.GetOr(MaxGames(row.hasWc)))
        <= PointsOver(row.hasWc, p.wcCeiling, p.laterCeiling, MaxGames(row.hasWc))
    by {
      if p.laterCeiling >= 0.0 && eff.GetOr(MaxGames(row.hasWc)) <= MaxGames(row.hasWc) {
        PointsOverMonotone(row.hasWc, p.wcCeiling, p.laterCeiling, eff.GetOr(MaxGames(row.hasWc)), MaxGames(row.hasWc));
      }
    }
    PointsOver(row.hasWc, p.wcCeiling, p.laterCeiling, eff.GetOr(MaxGames(row.hasWc)))
  }

  /** Expected games never exceed the cap, are at least one when every chance
      is present and nonnegative, equal the cap when a chance is missing, and
      otherwise equal one plus the chances. */
  lemma XgpBounds(row: OddsRow)
    ensures Xgp(row) <= (if row.hasWc then 4.0 else 3.0)
    ensures ExpectedGames(row).None? ==> Xgp(row) == MaxGames(row.hasWc)
    ensures row.hasWc && row.reachDiv.Some? && row.reachConf.Some? && row.reachSb.Some? ==>
      Xgp(row) == Min(4.0, 1.0 + row.reachDiv.value + row.reachConf.value + row.reachSb.value)
    ensures !row.hasWc && row.reachConf.Some? && row.reachSb.Some? ==>
      Xgp(row) == Min(3.0, 1.0 + row.reachConf.value + row.reachSb.value)
    ensures NonNegative(row) ==> 1.0 <= Xgp(row)
  {
  }

  function Min(a: real, b: real): real {
    if b < a then b else a
  }

  /** Every chance the expected-games sum reads is present and nonnegative. */
  predicate NonNegative(row: OddsRow) {
    && row.reachConf.Some? && row.reachConf.value >= 0.0
    && row.reachSb.Some? && row.reachSb.value >= 0.0
    && (row.hasWc ==> row.reachDiv.Some? && row.reachDiv.value >= 0.0)
  }

  /** Rows that differ only in having higher chances. */
  predicate Dominates(hi: OddsRow, lo: OddsRow) {
    && hi.hasWc == lo.hasWc
    && hi.reachConf.Some? && lo.reachConf.Some? && lo.reachConf.value <= hi.reachConf.value
    && hi.reachSb.Some? && lo.reachSb.Some? && lo.reachSb.value <= hi.reachSb.value
    && (hi.hasWc ==> hi.reachDiv.Some? && lo.reachDiv.Some? && lo.reachDiv.value <= hi.reachDiv.value)
  }

  /** Higher chances of reaching later rounds never lower expected games. */
  lemma XgpMonotone(hi: OddsRow, lo: OddsRow)
    requires Dominates(hi, lo)
    ensures Xgp(lo) <= Xgp(hi)
  {
  }

  /** With a nonnegative later-round mean, higher chances of reaching later
      rounds never lower expected points. */
  lemma TefpMonotone(p: PlayerRow, hi: OddsRow, lo: OddsRow)
    requires p.laterMean >= 0.0 && Dominates(hi, lo)
    ensures Tefp(p, lo) <= Tefp(p, hi)
  {
    XgpMonotone(hi, lo);
    PointsOverMonotone(hi.hasWc, p.wcMean, p.laterMean, Xgp(lo), Xgp(hi));
  }

  /** An undefined effective game count, or the most games the team can
      play, gives the Super Bowl ceiling. */
  lemma EffGamesFallback(p: PlayerRow, row: OddsRow, eff: Option<real>)
    requires eff.None? || eff.value == MaxGames(row.hasWc)
    ensures CeilingWithEffGames(p, row, eff) == CeilingIfSb(p, row)
  {
  }

  /** More games never lower a ceiling whose per-game points are
      nonnegative. */
  lemma PointsOverMonotone(hasWc: bool, wcPts: real, laterPts: real, g1: real, g2: real)
    requires laterPts >= 0.0 && g1 <= g2
    ensures PointsOver(hasWc, wcPts, laterPts, g1) <= PointsOver(hasWc, wcPts, laterPts, g2)
  {
    assert (g2 - g1) * laterPts >= 0.0;
    assert g2 * laterPts - g1 * laterPts == (g2 - g1) * laterPts;
  }

  /** The ceiling over `eff` games is nondecreasing in `eff`. */
  lemma CeilingMonotone(p: PlayerRow, row: OddsRow, e1: real, e2: real)
    requires p.laterCeiling >= 0.0 && e1 <= e2
    ensures CeilingWithEffGames(p, row, Some(e1)) <= CeilingWithEffGames(p, row, Some(e2))
  {
    PointsOverMonotone(row.hasWc, p.wcCeiling, p.laterCeiling, e1, e2);
  }

  /** A ceiling over at most the most games a team can play never exceeds
      its Super Bowl ceiling. */
  lemma CeilingWithinSb(p: PlayerRow, row: OddsRow, eff: Option<real>)
    requires p.laterCeiling >= 0.0
    requires eff.Some? ==> eff.value <= MaxGames(row.hasWc)
    ensures CeilingWithEffGames(p, row, eff) <= CeilingIfSb(p, row)
  {
    PointsOverMonotone(row.hasWc, p.wcCeiling, p.laterCeiling, eff.GetOr(MaxGames(row.hasWc)), MaxGames(row.hasWc));
  }

  /** With means no higher than ceilings, expected points never exceed the
      Super Bowl ceiling. */
  lemma TefpWithinSb(p: PlayerRow, row: OddsRow)
    requires p.wcMean <= p.wcCeiling
    requires 0.0 <= p.laterMean <= p.laterCeiling
    ensures Tefp(p, row) <= CeilingIfSb(p, row)
  {
    var x, m := Xgp(row), MaxGames(row.hasWc);
    var k := if row.hasWc then x - 1.0 else x;
    var km := if row.hasWc then m - 1.0 else m;
    var lm, lc := p.laterMean, p.laterCeiling;
    assert k <= km && km >= 0.0;
    ProductBound(k, km, lm, lc);
    assert Tefp(p, row) == (if row.hasWc then p.wcMean else 0.0) + k * p.laterMean;
    assert CeilingIfSb(p, row) == (if row.hasWc then p.wcCeiling else 0.0) + km * p.laterCeiling;
  }

  /** `k * lm <= km * lc` for `k <= km`, `0 <= km` and `0 <= lm <= lc`. */
  lemma ProductBound(k: real, km: real, lm: real, lc: real)
    requires k <= km && 0.0 <= km && 0.0 <= lm <= lc
    ensures k * lm <= km * lc
  {
    if k >= 0.0 {
      assert k * lm <= km * lm;
      assert km * lm <= km * lc;
    } else {
      assert k * lm <= 0.0;
    }
  }
}

=== FILE: tally.dfy ===
/** Counting and summing over sequences: occurrences of a value, distinctness,
    and the sum of a map's values over a sequence of keys. */
module Tally {

  /** Number of occurrences of `x` in `s`. */
  function Count<T(==)>(s: seq<T>, x: T): (n: nat)
    ensures n <= |s|
    ensures n == 0 <==> x !in s
  {
    if |s| == 0 then 0 else (if s[0] == x then 1 else 0) + Count(s[1..], x)
  }

  ghost predicate Distinct<T>(s: seq<T>) {
    forall i, j :: 0 <= i < j < |s| ==> s[i] != s[j]
  }

  /** In a sequence without repetitions every value occurs at most once. */
  lemma {:induction false} CountDistinct<T>(s: seq<T>, x: T)
    requires Distinct(s)
    ensures Count(s, x) == if x in s then 1 else 0
  {
    if |s| > 0 {
      assert Distinct(s[1..]) by {
        forall i, j | 0 <= i < j < |s| - 1
          ensures s[1..][i] != s[1..][j]
        {
          assert s[1..][i] == s[i + 1] && s[1..][j] == s[j + 1];
        }
      }
      CountDistinct(s[1..], x);
      if s[0] == x {
        forall k | 0 <= k < |s[1..]|
          ensures s[1..][k] != x
        {
          assert s[1..][k] == s[k + 1];
        }
      } else {
        assert x in s <==> x in s[1..] by {
          if x in s {
            var k :| 0 <= k < |s| && s[k] == x;
            assert s[1..][k - 1] == x;
          }
        }
      }
    }
  }

  /** The sum of `m`'s values at the keys listed in `ks`. */
  function Sum<K>(ks: seq<K>, m: map<K, int>): int
    requires forall k :: k in ks ==> k in m
  {
    if |ks| == 0 then 0 else m[ks[0]] + Sum(ks[1..], m)
  }

  lemma {:induction false} SumUnchanged<K>(ks: seq<K>, m: map<K, int>, k: K, v: int)
    requires forall j :: j in ks ==> j in m
    requires k !in ks
    ensures Sum(ks, m[k := v]) == Sum(ks, m)
  {
    if |ks| > 0 {
      SumUnchanged(ks[1..], m, k, v);
    }
  }

  /** Adding `v` at one listed key adds `v` to the sum, when no key is listed twice. */
  lemma {:induction false} SumAdd<K>(ks: seq<K>, m: map<K, int>, k: K, v: int)
    requires forall j :: j in ks ==> j in m
    requires Distinct(ks) && k in ks
    ensures Sum(ks, m[k := m[k] + v]) == Sum(ks, m) + v
  {
    assert Distinct(ks[1..]) by {
      forall i, j | 0 <= i < j < |ks| - 1
        ensures ks[1..][i] != ks[1..][j]
      {
        assert ks[1..][i] == ks[i + 1] && ks[1..][j] == ks[j + 1];
      }
    }
    if ks[0] == k {
      assert k !in ks[1..] by {
        forall i | 0 <= i < |ks| - 1
          ensures ks[1..][i] != k
        {
          assert ks[1..][i] == ks[i + 1];
        }
      }
      SumUnchanged(ks[1..], m, k, m[k] + v);
    } else {
      assert k in ks[1..] by {
        var i :| 0 <= i < |ks| && ks[i] == k;
        assert ks[1..][i - 1] == k;
      }
      SumAdd(ks[1..], m, k, v);
    }
  }

  /** A map that is zero on every listed key sums to zero. */
  lemma {:induction false} SumZero<K>(ks: seq<K>, m: map<K, int>)
    requires forall k :: k in ks ==> k in m && m[k] == 0
    ensures Sum(ks, m) == 0
  {
    if |ks| > 0 {
      SumZero(ks[1..], m);
    }
  }

  /** Maps that agree on the listed keys have the same sum. */
  lemma {:induction false} SumAgree<K>(ks: seq<K>, m1: map<K, int>, m2: map<K, int>)
    requires forall k :: k in ks ==> k in m1 && k in m2 && m1[k] == m2[k]
    ensures Sum(ks, m1) == Sum(ks, m2)
  {
    if |ks| > 0 {
      SumAgree(ks[1..], m1, m2);
    }
  }
}

=== FILE: wrappers.dfy ===
/** Failure-compatible Option and Result types, and the error conditions the
    modelled code raises. A Python `NaN` is modelled as `None`. */
module Wrappers {

  datatype Option<+T> = None | Some(value: T) {
    /** The value if present, otherwise `default`. */
    function GetOr(default: T): T {
      match this
      case Some(v) => v
      case None => default
    }
  }

  datatype Result<+T, +E> = Success(value: T) | Failure(error: E) {
    predicate IsFailure() {
      Failure?
    }

    function PropagateFailure<U>(): Result<U, E>
      requires Failure?
    {
      Failure(error)
    }

    function Extract(): T
      requires Success?
    {
      value
    }
  }

  /** The exceptions the modelled code can raise. */
  datatype Error =
    | UnknownTeam(team: string)   // conference_of: a team in neither conference
    | MissingKey(key: string)     // a dictionary lookup of an absent key
    | EmptyWinners                // max() over an empty list of winners
    | TooFewOpponents             // fewer than two winners left besides the worst seed
}
